=== FILE: README.md ===
# Multi-tenant notes API — a Dafny model

This project models the server core of a multi-tenant notes service. Tenants
are companies on a FREE or PRO plan. Users belong to exactly one tenant and
are ADMIN or MEMBER. Notes belong to a tenant and to the user who wrote
them.

Every request passes the gates its route declares, in order, before its
handler runs. The gates are:
- bearer-token authentication;
- a role check;
- on note creation, the FREE-plan quota (at most three notes);
- request-schema validation.

The handlers create, list, read, update and delete notes, and upgrade a
tenant to PRO. Every note query is scoped to the requester's tenant, except
the re-read after an update, which looks the note up by id alone.

The model is functional. The database is an immutable `Store` value holding
three tables. A handler takes a store and returns an `Outcome`: the response
and the store after the call. A gate returns either `Continue` or
`Halt(response)` and no store, so by construction no gate writes anything.

Three things outside the server are parameters, and every property holds for
all of them:
- Foreign code is the function-valued fields of `Oracles`: token signing and
  verification, password comparison, and the UUID and e-mail checks of the
  schema library.
- The id and timestamp the database assigns to a new note are an `Env`.
- A request is an `Endpoint` with its path parameter, an optional
  `Authorization` header and a body of typed JSON fields.

Modules, in dependency order:
- `Domain`: tenants, users, notes, the store, first-match lookup,
  order-keeping filters and the store invariant `Valid`. `Valid` means
  unique tenant ids and slugs, unique note ids, and at most three notes per
  FREE tenant.
- `Text`: `String.prototype.split` on one separator character, and its
  round trip with `join`.
- `Http`: requests, responses, the token payload, the oracles and the
  response messages.
- `Validation`: the zod schemas of the note bodies, the note id, the login
  body and the tenant slug.
- `Middleware`: `authenticateJWT`, `authorizeRole` and
  `checkSubscriptionLimit`.
- `Ordering`: the `createdAt`-descending order of the note list.
- `Notes`: the five note handlers.
- `Tenants`: `upgradeTenantPlan`.
- `Auth`: `login`.
- `Routes`: the route table, the gate pipeline, the dispatch to handlers,
  and the serving of one request or a sequence of them.
- `Isolation`: no write reaches another tenant's notes, and reads depend
  only on the requester's tenant.
- `Quota`: every handler preserves `Valid`, so no FREE tenant ever holds a
  fourth note.
- `Guarantees`: the properties of whole requests: which gate answers, what
  reaches which handler, isolation, the quota invariant over any request
  sequence, and plans only moving to PRO.
- `Lifecycle`: what a later read sees after a write, repeated updates and
  deletes, and that a login's token authenticates as the logged-in user.
- `Seed`: the seeded store (two FREE tenants, four users, three notes). On
  it, the quota scenario holds step by step:
  1. a member's third note is accepted;
  2. the fourth is refused with the quota message;
  3. the admin upgrades the tenant;
  4. the fourth note is then accepted.

The service's design describes a few behaviours the code does not have.
The model follows the code; each item says what was intended and what the
code does:
- Intended: 401 for every authentication failure. Code: a token that fails
  verification gets 403 "Invalid or expired token".
- Intended: the same e-mail may belong to distinct users of different
  tenants, each able to log in. Code: `login` looks the
  user up by e-mail alone, so when two tenants share an e-mail only the
  user the database returns first can log in with it (see
  `Auth.SharedEmailShadowsLaterUser`).
- Intended: `upgradeTenantPlan` re-checks the ADMIN role itself. Code: it
  does not; the route puts `authorizeRole(['ADMIN'])`
  in front of it.
- Intended: every note query is scoped to the tenant. Code: after
  `updateMany`, `updateNote` re-reads the note by id alone. Note ids are
  unique, so what it sends back is still the requester's own note
  (`Guarantees.UpdateAnswersOwnNote`).

## Model

| member | source | states |
|---|---|---|
| Domain.TenantById | api/src/middleware/auth.middleware.ts:52-55 | A tenant found is in the store and has the requested id. Nothing is found exactly when no tenant has that id. |
| Domain.TenantIndexBySlug | api/src/tenants/tenants.controller.ts:15-18 | The position found holds a tenant with the requested slug. Nothing is found exactly when no tenant has that slug. |
| Domain.NotesOf | api/src/notes/notes.controller.ts:30-33 | A note is selected if and only if it is in the store and belongs to the tenant. Each selected note keeps its multiplicity. |
| Text.Split | api/src/middleware/auth.middleware.ts:20 | A split yields at least one field, and no field contains the separator. |
| Text.JoinSplit | api/src/middleware/auth.middleware.ts:20 | Joining the fields of a split with the separator gives back the original string. |
| Text.SplitJoin | api/src/middleware/auth.middleware.ts:20 | Splitting a join of separator-free fields gives back those fields. |
| Text.SplitHead | api/src/middleware/auth.middleware.ts:20 | The first field of a split is the text before the first separator. |
| Middleware.BearerToken | api/src/middleware/auth.middleware.ts:16-20 | For a header starting with "Bearer ", the second space-separated field is the text after the prefix, up to the next space. |
| Middleware.EmptyBearerToken | api/src/middleware/auth.middleware.ts:16-20 | The header "Bearer " alone passes the prefix check and hands the empty string to verification. |
| Middleware.BearerRoundTrip | web/src/api/axios.ts:16-19 | The header the web client builds from a space-free token passes the prefix check, and the server extracts exactly that token. |
| Middleware.AuthenticateJWT | api/src/middleware/auth.middleware.ts:13-30 | An absent or unprefixed header gets 401. The request continues only if the extracted token verifies, carrying its payload as the identity. Any verification failure gets 403. |
| Middleware.VerificationFailureIsUniform | api/src/middleware/auth.middleware.ts:22-29 | The reason verification failed never changes the answer. |
| Middleware.AuthorizeRole | api/src/middleware/auth.middleware.ts:32-44 | No identity gets 401. A request with an identity continues if and only if its role is in the allowed list, otherwise 403 "Insufficient permissions". The identity passes on unchanged. |
| Middleware.CheckSubscriptionLimit | api/src/middleware/auth.middleware.ts:46-72 | No identity gets 401; a tenant id not in the store gets 404. Otherwise the gate halts if and only if the tenant is FREE with at least three notes, answering 403 with the quota message. PRO never halts. |
| Validation.OptionalText | api/src/notes/notes.validation.ts:6 | An optional string field rejects non-strings, reads an absent field as absent, and passes a string through. |
| Validation.ParseCreateNote | api/src/notes/notes.validation.ts:3-8 | A create body is accepted if and only if its title is a non-empty string and its content is absent or a string. The input carries exactly those fields. |
| Validation.ParseUpdateNote | api/src/notes/notes.validation.ts:10-18 | An update is accepted if and only if the id is UUID-shaped, the title is absent or a non-empty string, and the content is absent or a string. |
| Validation.Utf16Length | api/src/auth/auth.validation.ts:7 | The length `.min(6)` compares is JavaScript's: between one and two units per character, and equal to the character count if and only if no character lies beyond U+FFFF. |
| Validation.ParseLogin | api/src/auth/auth.validation.ts:4-9 | A login body is accepted if and only if the e-mail is an e-mail-shaped string and the password is a string of at least six UTF-16 code units. The input carries those two strings. |
| Validation.PasswordMinimumCountsUnits | api/src/auth/auth.validation.ts:7 | Three characters beyond U+FFFF meet the password minimum, as six ASCII characters do; five ASCII characters do not. |
| Validation.CreateRoundTrip | api/src/notes/notes.validation.ts:3-8 | The body a client builds from a create input passes validation exactly when its title is non-empty, and yields that input back. |
| Validation.CreateParseFaithful | api/src/notes/notes.validation.ts:3-8 | A body that passes create validation is rebuilt exactly from the parsed input: no note field is lost. |
| Validation.UpdateRoundTrip | api/src/notes/notes.validation.ts:10-18 | For a valid id, the body a client builds from an update input passes exactly when a present title is non-empty, and yields that input back. |
| Validation.UpdateParseFaithful | api/src/notes/notes.validation.ts:10-18 | A body that passes update validation is rebuilt exactly from the parsed input. |
| Ordering.SortNewestFirst | api/src/notes/notes.controller.ts:34 | The result is ordered by `createdAt`, newest first, and is a permutation of the input. |
| Notes.CreateNote | api/src/notes/notes.controller.ts:5-24 | No identity gets 401. A 201 comes back if and only if there is an identity and the new id is free. A 201 appends exactly one note: given title and content, the requester's tenant and user, the assigned id and time. A taken id gets 500 and no change. |
| Notes.GetNotes | api/src/notes/notes.controller.ts:26-41 | No identity gets 401. Otherwise a 200 lists, newest first, exactly the requester's tenant's notes, each with its multiplicity. A note is listed if and only if it belongs to that tenant. |
| Notes.GetNoteById | api/src/notes/notes.controller.ts:43-64 | No identity gets 401. A 200 comes back if and only if a note with that id exists in the requester's tenant, and it returns such a note from the store. Otherwise 404, even when another tenant has that id. |
| Notes.Patch | api/src/notes/notes.controller.ts:78-81 | Only the title and content change. A field given in the input replaces the old value; an absent one keeps it. |
| Notes.PatchOwned | api/src/notes/notes.controller.ts:73-82 | The notes keep their number and order. Exactly the notes with that id in that tenant are patched; every other note is unchanged. |
| Notes.UpdateNote | api/src/notes/notes.controller.ts:66-95 | No identity gets 401. No matching note in the requester's tenant gets 404 and no change. Otherwise 200, tenants and users unchanged, the matching note patched, and every other note identical. |
| Notes.RemoveOwned | api/src/notes/notes.controller.ts:103-108 | A note remains if and only if it was present and is not the addressed note of that tenant. Remaining notes keep their multiplicity. |
| Notes.DeleteShrinks | api/src/notes/notes.controller.ts:103-112 | When a note matches, the note table strictly shrinks, so the deleted count is never 0 on the success path. |
| Notes.DeleteNote | api/src/notes/notes.controller.ts:97-118 | No identity gets 401. No matching note gets 404 and no change. Otherwise 204, only the notes table changes, and a note survives if and only if it is not the addressed note of the requester's tenant. |
| Tenants.SetPro | api/src/tenants/tenants.controller.ts:33-37 | Plans only rise and no other field changes. Every tenant with that id ends on PRO, and every tenant with another id is unchanged. |
| Tenants.UpgradeTenantPlan | api/src/tenants/tenants.controller.ts:6-44 | 401 without identity; 404 for an unknown slug; 403 for another tenant's slug. An already-PRO tenant gets 200 "already on Pro plan" without its slug, and no change. A FREE tenant becomes PRO, nothing else changes, and the answer is 200 "<name> successfully upgraded to Pro plan." with the slug. Plans only ever rise. |
| Tenants.UpgradeIdempotent | api/src/tenants/tenants.controller.ts:29-37 | A second identical upgrade leaves the store as the first left it. |
| Auth.FirstUserByEmail | api/src/auth/auth.controller.ts:11-16 | Finds the first user whose e-mail matches, in any tenant. Nothing is found if and only if no user has that e-mail. |
| Auth.Login | api/src/auth/auth.controller.ts:7-34 | 401 "Invalid credentials" if and only if no user has the e-mail or the password does not match that user. Otherwise, a 200 carries the signed claims of that user and tenant, plus the user's id, e-mail, role, tenant id, tenant name and slug. A user whose tenant is missing gets 500 "Internal server error". |
| Auth.SharedEmailShadowsLaterUser | api/src/auth/auth.controller.ts:11-20 | A user whose e-mail an earlier user already holds plays no part in login: the answer is as if that user and every later user were absent from the table. |
| Routes.Pipeline | api/src/routes.ts:19-33 | A public route runs no gate but schema validation: no authentication and no role check. A protected route authenticates first and only first, then checks the role once: ADMIN for the upgrade, MEMBER or ADMIN for notes. Only note creation checks the quota. Each schema is checked on its own route only (login, upgrade, create, update), so list, read, delete and health validate nothing, and validation, where present, comes last. |
| Routes.RunStages | api/src/routes.ts:26-33 | With no gate the request goes on. A gate's answer is always a refusal: the validation rejection, or 401, 403 or 404 with a message, never a success. |
| Routes.Dispatch | api/src/routes.ts:20-33 | No handler writes the users table. Only the upgrade route changes tenants, and only by raising plans. Only create, update and delete change the notes. |
| Routes.Serve | api/src/server.ts:14 | Over any sequence of requests, the users table stays as it was and no plan moves back from PRO. |
| Routes.RunStagesSplit | api/src/routes.ts:26-33 | Running a gate sequence in two parts equals running it whole. A halt in the first part is the final answer, and later gates never run. |
| Routes.Handle | api/src/routes.ts:20-33 | When a gate answers, that answer is the response and the store is unchanged. |
| Isolation.AppendNote | api/src/notes/notes.controller.ts:11-18 | An inserted note is added to its own tenant's notes and to no other tenant's. |
| Isolation.PatchKeepsTenants | api/src/notes/notes.controller.ts:73-82 | An update keeps every tenant's note count and leaves every other tenant's notes identical. |
| Isolation.RemoveKeepsTenants | api/src/notes/notes.controller.ts:103-108 | A delete never adds to any tenant and leaves every other tenant's notes identical. |
| Isolation.WritesStayInTenant | api/src/notes/notes.controller.ts:5-118 | Create, update and delete by a requester leave every other tenant's notes identical. |
| Isolation.FirstOwnedAmongOwnNotes | api/src/notes/notes.controller.ts:49-54 | The first note with a given id in a tenant is found, and is the same note, whether the search runs over the whole table or over that tenant's notes only. |
| Isolation.ReadsSeeOnlyOwnTenant | api/src/notes/notes.controller.ts:26-64 | Two stores with the same notes for the requester's tenant give the same list and the same single-note answer, whatever other tenants hold. |
| Quota.CreatePreservesValid | api/src/middleware/auth.middleware.ts:61-70 | A create that passed the quota gate keeps the store valid: no FREE tenant goes past three notes, and ids stay unique. |
| Quota.UpdatePreservesValid | api/src/notes/notes.controller.ts:73-82 | An update keeps the store valid. |
| Quota.DeletePreservesValid | api/src/notes/notes.controller.ts:103-108 | A delete keeps the store valid. |
| Quota.UpgradePreservesValid | api/src/tenants/tenants.controller.ts:33-37 | An upgrade keeps the store valid. |
| Guarantees.Requester | api/src/middleware/auth.middleware.ts:16-25 | A request has a requester if and only if the authentication gate lets it continue, and then with the same identity. |
| Guarantees.LaterGatesKeepIdentity | api/src/middleware/auth.middleware.ts:32-72 | Gates other than authentication never replace the attached identity. |
| Guarantees.ProtectedRun | api/src/routes.ts:26-33 | On a protected route, the authentication answer, if any, is final. Otherwise the remaining gates run with the verified identity. |
| Guarantees.HandlerSeesRequester | api/src/routes.ts:26-33 | A protected handler runs only for a verified token, and sees exactly its payload as the identity. |
| Guarantees.MissingBearerIsRejected | api/src/middleware/auth.middleware.ts:16-18 | On any protected route, a missing or unprefixed header gets 401 and no change. |
| Guarantees.RejectedTokenIsForbidden | api/src/middleware/auth.middleware.ts:22-29 | On any protected route, a token that fails verification gets 403 and no change. |
| Guarantees.MemberCannotUpgrade | api/src/routes.ts:26 | A MEMBER's upgrade request gets 403 "Insufficient permissions" and no change. |
| Guarantees.NoteRoutesAdmitBothRoles | api/src/routes.ts:29-33 | On every notes route, a verified request of either role passes the role gate. |
| Guarantees.QuotaPrecedesValidation | api/src/routes.ts:29 | A create by a tenant at its FREE quota gets the quota 403 and no change, whatever the body. |
| Guarantees.CreateReachesHandler | api/src/routes.ts:29 | A create with a verified token, room in the quota and a valid body is exactly `createNote` with the requester's identity. |
| Guarantees.UpgradeReachesHandler | api/src/routes.ts:26 | An ADMIN's upgrade with a non-empty slug is exactly `upgradeTenantPlan` with the requester's identity. |
| Guarantees.ListReachesHandler | api/src/routes.ts:30 | A list request with a verified token, of either role, is exactly `getNotes` with the requester's identity, and changes nothing. |
| Guarantees.UpdateReachesHandler | api/src/routes.ts:32 | An update with a verified token, of either role, and a body the schema accepts is exactly `updateNote` with the requester's identity, the path id and the parsed input. |
| Guarantees.OnlyUpdateChecksIdFormat | api/src/routes.ts:31-33 | Reads and deletes by id reach their handler with any id; an update with a non-UUID id is rejected by validation. |
| Guarantees.PublicRoutesIgnoreToken | api/src/routes.ts:20-23 | The login and health answers do not depend on the Authorization header. |
| Guarantees.PublicRoutesReachHandler | api/src/routes.ts:20-23 | Health always answers 200 with no change. Login answers exactly as `login` does on the validated body, or with the validation rejection, and changes nothing. |
| Guarantees.ReadRoutesKeepStore | api/src/routes.ts:20-31 | Login, health, list and read never change the store. |
| Guarantees.HandlePreservesValid | api/src/routes.ts:20-33 | Every request, applied atomically, keeps the store valid. |
| Guarantees.ServePreservesValid | api/src/routes.ts:20-33 | Any sequence of atomically applied requests keeps the store valid. No FREE tenant ever holds a fourth note. |
| Guarantees.HandlePlansOnlyRise | api/src/routes.ts:20-33 | No request changes a tenant other than its plan, and none moves a plan from PRO back to FREE. |
| Guarantees.HandleIsolatesTenants | api/src/routes.ts:29-33 | No request changes the notes of a tenant it does not hold a verified token for. |
| Guarantees.UpdateAnswersOwnNote | api/src/notes/notes.controller.ts:88-90 | With unique note ids, the note an update re-reads by id alone belongs to the requester's tenant. |
| Guarantees.GatesShowNoNotes | api/src/middleware/auth.middleware.ts:13-72 | A gate's answer never carries a note. |
| Guarantees.ResponsesShowOwnNotesOnly | api/src/routes.ts:29-33 | With unique keys, every note in any response belongs to the tenant of the request's verified token. |
| Lifecycle.CreateThenRead | api/src/notes/notes.controller.ts:5-64 | After a create with a fresh id, reading that id returns the new note, and the list shows it. |
| Lifecycle.UpdateAnswersPatched | api/src/notes/notes.controller.ts:73-90 | With unique ids, the note an update sends back is the patched note. |
| Lifecycle.UpdateThenRead | api/src/notes/notes.controller.ts:43-82 | With unique ids, reading the id after an update returns the patched note. |
| Lifecycle.DeleteThenRead | api/src/notes/notes.controller.ts:103-112 | After a delete, reading the id gets 404, and a second delete gets 404 with no change. |
| Lifecycle.UpdateTwiceIsOnce | api/src/notes/notes.controller.ts:73-82 | Repeating an update changes nothing more. |
| Lifecycle.LoginTokenAuthenticates | api/src/auth/auth.controller.ts:22-30 | If verification accepts what signing produced, a login's space-free token authenticates later requests as exactly the user the login response describes. |
| Seed.SeedIsValid | api/prisma/seed.ts:10-124 | The seeded store is valid, and "acme" holds two notes. |
| Seed.ThirdNoteAccepted | api/src/routes.ts:29 | On the seeded store, an acme member's third note is created with 201. |
| Seed.FourthNoteRefused | api/src/middleware/auth.middleware.ts:61-70 | After three notes, the member's fourth gets the quota 403 and no change. |
| Seed.AdminUpgradesAcme | api/src/tenants/tenants.controller.ts:33-39 | The acme admin's upgrade answers 200 and leaves acme on PRO with everything else unchanged. |
| Seed.FourthNoteAcceptedOnPro | api/src/middleware/auth.middleware.ts:61-72 | On PRO, the same fourth note is created with 201. |

## Left out

- Token signing and verification are the oracle fields `sign` and `verify`. Token expiry, the secret and its environment check are therefore not modelled.
- Password hashing and comparison are the oracle field `passwordMatches`.
- The UUID and e-mail format checks of the schema library are the oracle fields `isUuid` and `isEmail`.
- The validation middleware's source is not part of this model. A rejected schema is the response `Invalid`; its status code and error body are not modelled.
- Lines 35-50 of `login` are not modelled. They run after the response has been sent and repeat the lookup with logging.
- Database and infrastructure failures that land in the `catch` blocks (500) are not modelled, except two reachable cases, which are: a note id collision in `createNote`, and a user whose tenant row is missing at login.
- Notes.UpdateNote: an update whose body has neither title nor content passes the schema and is modelled as a successful no-op (200, store unchanged). Whether the database reports such an `updateMany` as zero rows, which the code would answer with 404, depends on the database engine, which is not part of this model.
- Concurrency is not modelled. Each request runs atomically against one store. The quota gate and the insert are separate steps in the source, so parallel creates could pass the gate together. The quota invariant is proved only for sequential application.
- `prisma.user.findFirst` in `login` has no `orderBy`, so the database decides which of several same-e-mail users it returns. The order of the `users` sequence stands for that unspecified row order, and "earlier" and "later" in `Auth.SharedEmailShadowsLaterUser` are relative to it.
- The order of notes with equal `createdAt` is not determined. `GetNotes` promises newest-first and a permutation of the tenant's notes, not a particular order among ties.
- The database schema file is not part of this model. Unique tenant ids and slugs and unique note ids are taken as the store invariant, so they are not derived from the schema.
- Express itself is not modelled: unknown routes, HTTP methods, CORS, JSON body parsing, and the duplicate `/health` route of `server.ts`.
- The web front end is not modelled, apart from the bearer header its API client builds.
- `Lifecycle.LoginTokenAuthenticates` assumes signed tokens contain no space. This holds for compact JWTs, but the `sign` oracle does not guarantee it.
- `Seed`: generated ids, timestamps and password hashes are stand-in constants, and the upsert semantics of the seed script is not modelled. The scenario's `isUuid` checks only the 8-4-4-4-12 hexadecimal shape, which the seeded note ids do not have.

=== FILE: auth.dfy ===
/**
 * `login` of `auth.controller.ts` (the first response only).  The user is
 * looked up by e-mail alone, whatever tenant it belongs to, and the first
 * match is taken.  Password comparison and token signing are oracles.
 */
module Auth {
  import opened Domain
  import opened Http
  import opened Validation

  /** `prisma.user.findFirst({ where: { email } })`. */
  function FirstUserByEmail(users: seq<User>, email: string): (r: Option<nat>)
    ensures r.Some? ==> r.value < |users| && users[r.value].email == email
    ensures r.Some? ==> forall j :: 0 <= j < r.value ==> users[j].email != email
    ensures r.None? <==> forall u :: u in users ==> u.email != email
  {
    FirstWhere(users, (u: User) => u.email == email)
  }

  /** The claims signed into the token for user `u` of tenant `t`. */
  function Claims(u: User, t: Tenant): (id: Identity)
    ensures id.userId == u.id && id.email == u.email && id.role == u.role
    ensures id.tenantId == u.tenantId && id.tenantSlug == t.slug
  {
    Identity(u.id, u.email, u.role, u.tenantId, t.slug)
  }

  /** The login rejection: an unknown user or a wrong password, indistinguishably. */
  predicate CredentialsRejected(o: Oracles, s: Store, input: LoginInput) {
    || FirstUserByEmail(s.users, input.email).None?
    || !o.passwordMatches(input.password, s.users[FirstUserByEmail(s.users, input.email).value].passwordHash)
  }

  function Login(o: Oracles, s: Store, input: LoginInput): (r: Response)
    ensures CredentialsRejected(o, s, input) ==> r == Deny(401, InvalidCredentialsMessage)
    ensures r.Reply? && r.status == 401 ==> CredentialsRejected(o, s, input)
    ensures r.Reply? && r.status == 200 ==>
      && !CredentialsRejected(o, s, input)
      && var u := s.users[FirstUserByEmail(s.users, input.email).value];
      && TenantById(s.tenants, u.tenantId).Some?
      && var t := TenantById(s.tenants, u.tenantId).value;
      && r.payload == LoginJson(o.sign(Claims(u, t)),
                                LoginUser(u.id, u.email, u.role, u.tenantId, t.name, t.slug))
    ensures !CredentialsRejected(o, s, input) ==>
      var u := s.users[FirstUserByEmail(s.users, input.email).value];
      r.Reply? && (r.status == 200 <==> TenantById(s.tenants, u.tenantId).Some?)
    ensures !CredentialsRejected(o, s, input) ==>
      var u := s.users[FirstUserByEmail(s.users, input.email).value];
      TenantById(s.tenants, u.tenantId).None? ==> r == Deny(500, InternalErrorMessage)
  {
    match FirstUserByEmail(s.users, input.email)
    case None => Deny(401, InvalidCredentialsMessage)
    case Some(k) =>
      var u := s.users[k];
      if !o.passwordMatches(input.password, u.passwordHash) then Deny(401, InvalidCredentialsMessage)
      else match TenantById(s.tenants, u.tenantId)
        // `user.tenant` is missing: the property access throws inside the try block.
        case None => Deny(500, InternalErrorMessage)
        case Some(t) =>
          Reply(200, LoginJson(o.sign(Claims(u, t)),
                               LoginUser(u.id, u.email, u.role, u.tenantId, t.name, t.slug)))
  }

  /**
   * Because the lookup ignores the tenant, once some user holds an e-mail,
   * every later user with that e-mail (in any tenant) is invisible to login:
   * the answer is the one the store would give without them.
   */
  lemma SharedEmailShadowsLaterUser(o: Oracles, s: Store, earlier: nat, later: nat, password: string)
    requires earlier < later < |s.users|
    requires s.users[earlier].email == s.users[later].email
    ensures var input := LoginInput(s.users[later].email, password);
      Login(o, s, input) == Login(o, s.(users := s.users[..later]), input)
  {
    var email := s.users[later].email;
    var k := FirstUserByEmail(s.users, email);
    var k' := FirstUserByEmail(s.users[..later], email);
    assert s.users[..later][earlier] == s.users[earlier];
    assert k.value <= earlier && k'.value <= earlier;
    assert s.users[..later][k'.value] == s.users[k'.value];
    assert k == k';
  }
}

=== FILE: domain.dfy ===
/**
 * The persisted entities of the notes service and the queries the
 * controllers run against them.  The relational database is modelled as an
 * immutable record of three sequences; a lookup returns the first row that
 * matches, as `findFirst` does, and well-formedness states the uniqueness
 * constraints that make `findUnique` agree with it.
 */
module Domain {

  datatype Option<+T> = None | Some(value: T)

  datatype Plan = FREE | PRO
  datatype Role = ADMIN | MEMBER

  datatype Tenant = Tenant(id: string, slug: string, name: string, plan: Plan)

  datatype User = User(id: string, email: string, passwordHash: string, role: Role, tenantId: string)

  /** `createdAt` is an abstract timestamp: only its order matters. */
  datatype Note = Note(id: string, title: string, content: Option<string>,
                       tenantId: string, userId: string, createdAt: int)

  datatype Store = Store(tenants: seq<Tenant>, users: seq<User>, notes: seq<Note>)

  /** Number of notes a FREE tenant may hold. */
  const FreeNoteLimit: nat := 3

  /** Index of the first element satisfying `p`, if any. */
  function FirstWhere<T>(s: seq<T>, p: T -> bool): (r: Option<nat>)
    ensures r.Some? ==> r.value < |s| && p(s[r.value])
    ensures r.Some? ==> forall j :: 0 <= j < r.value ==> !p(s[j])
    ensures r.None? ==> forall j :: 0 <= j < |s| ==> !p(s[j])
  {
    if |s| == 0 then None
    else if p(s[0]) then Some(0)
    else match FirstWhere(s[1..], p)
      case None => None
      case Some(k) => Some(k + 1)
  }

  /** `prisma.tenant.findUnique({ where: { id } })`. */
  function TenantById(ts: seq<Tenant>, id: string): (r: Option<Tenant>)
    ensures r.Some? ==> r.value in ts && r.value.id == id
    ensures r.None? <==> forall t :: t in ts ==> t.id != id
  {
    match FirstWhere(ts, (t: Tenant) => t.id == id)
    case None => None
    case Some(i) => Some(ts[i])
  }

  /** `prisma.tenant.findUnique({ where: { slug } })`, as a position. */
  function TenantIndexBySlug(ts: seq<Tenant>, slug: string): (r: Option<nat>)
    ensures r.Some? ==> r.value < |ts| && ts[r.value].slug == slug
    ensures r.None? <==> forall t :: t in ts ==> t.slug != slug
  {
    FirstWhere(ts, (t: Tenant) => t.slug == slug)
  }

  /** The elements of `s` satisfying `p`, in order (a `where` clause). */
  function Filter<T(==,!new)>(s: seq<T>, p: T -> bool): (r: seq<T>)
    ensures forall x {:trigger multiset(r)[x]} :: multiset(r)[x] == if p(x) then multiset(s)[x] else 0
    ensures forall x :: x in r <==> x in s && p(x)
    ensures |r| <= |s|
  {
    if |s| == 0 then []
    else
      assert s == [s[0]] + s[1..];
      (if p(s[0]) then [s[0]] else []) + Filter(s[1..], p)
  }

  lemma {:induction false} FilterAppend<T(!new)>(a: seq<T>, b: seq<T>, p: T -> bool)
    ensures Filter(a + b, p) == Filter(a, p) + Filter(b, p)
  {
    if |a| == 0 {
      assert a + b == b;
    } else {
      assert (a + b)[1..] == a[1..] + b;
      FilterAppend(a[1..], b, p);
    }
  }

  /** Filtering out an element that is present shortens the sequence. */
  lemma {:induction false} FilterShrinks<T(!new)>(s: seq<T>, p: T -> bool, x: T)
    requires x in s && !p(x)
    ensures |Filter(s, p)| < |s|
  {
    if s[0] != x {
      FilterShrinks(s[1..], p, x);
    }
  }

  /** Filtering first by a weaker condition changes nothing. */
  lemma {:induction false} FilterOfFilter<T(!new)>(s: seq<T>, weaker: T -> bool, p: T -> bool)
    requires forall x :: x in s && p(x) ==> weaker(x)
    ensures Filter(Filter(s, weaker), p) == Filter(s, p)
  {
    if |s| > 0 {
      FilterOfFilter(s[1..], weaker, p);
      var head := if weaker(s[0]) then [s[0]] else [];
      assert Filter(s, weaker) == head + Filter(s[1..], weaker);
      FilterAppend(head, Filter(s[1..], weaker), p);
      if weaker(s[0]) {
        assert [s[0]][1..] == [];
      }
    }
  }

  /** Commuting two filters gives the same sequence. */
  lemma {:induction false} FilterCommutes<T(!new)>(s: seq<T>, p: T -> bool, q: T -> bool)
    ensures Filter(Filter(s, p), q) == Filter(Filter(s, q), p)
  {
    if |s| > 0 {
      FilterCommutes(s[1..], p, q);
      var hp := if p(s[0]) then [s[0]] else [];
      var hq := if q(s[0]) then [s[0]] else [];
      assert Filter(s, p) == hp + Filter(s[1..], p);
      assert Filter(s, q) == hq + Filter(s[1..], q);
      FilterAppend(hp, Filter(s[1..], p), q);
      FilterAppend(hq, Filter(s[1..], q), p);
      assert [s[0]][1..] == [];
    }
  }

  /** The row filter `where: { tenantId }`. */
  function OfTenant(tenantId: string): Note -> bool {
    (n: Note) => n.tenantId == tenantId
  }

  /** The notes owned by `tenantId`, in store order (`where: { tenantId }`). */
  function NotesOf(notes: seq<Note>, tenantId: string): (r: seq<Note>)
    ensures forall n {:trigger multiset(r)[n]} ::
      multiset(r)[n] == if n.tenantId == tenantId then multiset(notes)[n] else 0
    ensures forall n :: n in r <==> n in notes && n.tenantId == tenantId
  {
    Filter(notes, OfTenant(tenantId))
  }

  lemma NotesOfAppend(a: seq<Note>, b: seq<Note>, tenantId: string)
    ensures NotesOf(a + b, tenantId) == NotesOf(a, tenantId) + NotesOf(b, tenantId)
  {
    FilterAppend(a, b, OfTenant(tenantId));
  }

  /** Tenant ids and slugs are unique keys. */
  predicate UniqueTenants(ts: seq<Tenant>) {
    forall i, j :: 0 <= i < j < |ts| ==> ts[i].id != ts[j].id && ts[i].slug != ts[j].slug
  }

  /** Note ids are unique keys. */
  predicate UniqueNoteIds(ns: seq<Note>) {
    forall i, j :: 0 <= i < j < |ns| ==> ns[i].id != ns[j].id
  }

  predicate WellFormed(s: Store) {
    UniqueTenants(s.tenants) && UniqueNoteIds(s.notes)
  }

  /** The quota invariant: no FREE tenant holds more than the limit. */
  predicate WithinFreeQuota(s: Store) {
    forall t :: t in s.tenants && t.plan == FREE ==> |NotesOf(s.notes, t.id)| <= FreeNoteLimit
  }

  predicate Valid(s: Store) {
    WellFormed(s) && WithinFreeQuota(s)
  }
}

=== FILE: guarantees.dfy ===
/**
 * What the route table guarantees for every request: which gate answers
 * when, that an answering gate leaves the store alone, that the handlers
 * behind the gates keep the quota invariant and tenant isolation, and that
 * plans only ever move to PRO.
 */
module Guarantees {
  import opened Domain
  import opened Http
  import opened Validation
  import opened Middleware
  import opened Routes
  import Notes
  import Tenants
  import Isolation
  import Quota
  import Auth

  /** The identity a request's bearer token proves, if any. */
  function Requester(o: Oracles, req: Request): (r: Option<Identity>)
    ensures r.Some? <==> AuthenticateJWT(o, req.authorization).Continue?
    ensures r.Some? ==> AuthenticateJWT(o, req.authorization) == Continue(r)
  {
    if WellFormedHeader(req.authorization) && o.verify(BearerToken(req.authorization.value)).Verified? then
      Some(o.verify(BearerToken(req.authorization.value)).payload)
    else
      None
  }

  /** The gates after authentication never replace the identity. */
  lemma {:induction false} LaterGatesKeepIdentity(o: Oracles, s: Store, req: Request,
                                                  stages: seq<Stage>, user: Option<Identity>)
    requires forall i :: 0 <= i < |stages| ==> !stages[i].Authenticate?
    ensures RunStages(o, s, req, stages, user).Continue? ==> RunStages(o, s, req, stages, user).user == user
    decreases |stages|
  {
    if |stages| > 0 {
      LaterGatesKeepIdentity(o, s, req, stages[1..], user);
    }
  }

  /** The gates of a protected route after the first. */
  function Guards(e: Endpoint): seq<Stage>
    requires !e.IsPublic()
  {
    Pipeline(e)[1..]
  }

  lemma ProtectedShape(e: Endpoint)
    requires !e.IsPublic()
    ensures Pipeline(e) == [Authenticate] + Guards(e)
    ensures forall i :: 0 <= i < |Guards(e)| ==> !Guards(e)[i].Authenticate?
  {
  }

  /** On a protected route, the pipeline is authentication followed by the guards. */
  lemma ProtectedRun(o: Oracles, s: Store, req: Request)
    requires !req.endpoint.IsPublic()
    ensures RunStages(o, s, req, Pipeline(req.endpoint), None) ==
      if AuthenticateJWT(o, req.authorization).Halt? then AuthenticateJWT(o, req.authorization)
      else RunStages(o, s, req, Guards(req.endpoint), AuthenticateJWT(o, req.authorization).user)
  {
  }

  /** A protected handler runs only for a verified token, with exactly its payload. */
  lemma HandlerSeesRequester(o: Oracles, s: Store, req: Request)
    requires !req.endpoint.IsPublic()
    requires RunStages(o, s, req, Pipeline(req.endpoint), None).Continue?
    ensures Requester(o, req).Some?
    ensures RunStages(o, s, req, Pipeline(req.endpoint), None).user == Requester(o, req)
  {
    ProtectedRun(o, s, req);
    ProtectedShape(req.endpoint);
    LaterGatesKeepIdentity(o, s, req, Guards(req.endpoint), Requester(o, req));
  }

  /** Without a well-formed bearer header, a protected route answers 401 and changes nothing. */
  lemma MissingBearerIsRejected(o: Oracles, s: Store, req: Request, env: Env)
    requires !req.endpoint.IsPublic()
    requires !WellFormedHeader(req.authorization)
    ensures Handle(o, s, req, env) == Outcome(Deny(401, TokenMissingMessage), s)
  {
  }

  /** Any verification failure gives the same 403, and changes nothing. */
  lemma RejectedTokenIsForbidden(o: Oracles, s: Store, req: Request, env: Env)
    requires !req.endpoint.IsPublic()
    requires WellFormedHeader(req.authorization)
    requires o.verify(BearerToken(req.authorization.value)).Failed?
    ensures Handle(o, s, req, env) == Outcome(Deny(403, InvalidTokenMessage), s)
  {
  }

  /** A MEMBER never reaches the upgrade handler. */
  lemma MemberCannotUpgrade(o: Oracles, s: Store, req: Request, env: Env)
    requires req.endpoint.UpgradeRoute?
    requires Requester(o, req).Some? && Requester(o, req).value.role == MEMBER
    ensures Handle(o, s, req, env) == Outcome(Deny(403, InsufficientPermissionsMessage), s)
  {
    ProtectedRun(o, s, req);
  }

  lemma RolesAllowedOnNotes(role: Role)
    ensures role in NoteRoles
  {
  }

  /** The notes routes let both roles through to what follows the role gate. */
  lemma NoteRoutesAdmitBothRoles(o: Oracles, s: Store, req: Request)
    requires req.endpoint.IsNotesRoute() && Requester(o, req).Some?
    ensures Guards(req.endpoint)[0] == RequireRole(NoteRoles)
    ensures RunStages(o, s, req, Pipeline(req.endpoint), None) ==
      RunStages(o, s, req, Guards(req.endpoint)[1..], Requester(o, req))
  {
    ProtectedRun(o, s, req);
    RolesAllowedOnNotes(Requester(o, req).value.role);
  }

  /** The quota gate runs before body validation: a full FREE tenant gets the quota 403 for any body. */
  lemma QuotaPrecedesValidation(o: Oracles, s: Store, req: Request, env: Env, t: Tenant)
    requires req.endpoint.CreateNoteRoute?
    requires Requester(o, req).Some?
    requires TenantById(s.tenants, Requester(o, req).value.tenantId) == Some(t)
    requires AtQuota(s, t)
    ensures Handle(o, s, req, env) == Outcome(Deny(403, QuotaMessage), s)
  {
    ProtectedRun(o, s, req);
    RolesAllowedOnNotes(Requester(o, req).value.role);
  }

  /** A create that passes every gate reaches `createNote` with the requester's identity. */
  lemma CreateReachesHandler(o: Oracles, s: Store, req: Request, env: Env, input: CreateNoteInput)
    requires req.endpoint.CreateNoteRoute?
    requires Requester(o, req).Some?
    requires CheckSubscriptionLimit(s, Requester(o, req)).Continue?
    requires ParseCreateNote(req.body) == Some(input)
    ensures Handle(o, s, req, env) == Notes.CreateNote(s, Requester(o, req), input, env)
  {
    ProtectedRun(o, s, req);
    RolesAllowedOnNotes(Requester(o, req).value.role);
  }

  /** An ADMIN's upgrade with a non-empty slug reaches `upgradeTenantPlan`. */
  lemma UpgradeReachesHandler(o: Oracles, s: Store, req: Request, env: Env)
    requires req.endpoint.UpgradeRoute? && ValidSlug(req.endpoint.slug)
    requires Requester(o, req).Some? && Requester(o, req).value.role == ADMIN
    ensures Handle(o, s, req, env) == Tenants.UpgradeTenantPlan(s, Requester(o, req), req.endpoint.slug)
  {
    ProtectedRun(o, s, req);
    var guards := Guards(req.endpoint);
    assert guards == [RequireRole([ADMIN]), Validate(UpgradeSchema)];
    assert guards[1..] == [Validate(UpgradeSchema)] && guards[1..][1..] == [];
    var u := Requester(o, req);
    assert u.value.role in [ADMIN];
    assert Accepts(o, req, UpgradeSchema);
    assert RunStages(o, s, req, guards[1..][1..], u) == Continue(u);
    assert RunStages(o, s, req, guards[1..], u) == Continue(u);
    assert RunStages(o, s, req, guards, u) == Continue(u);
  }

  /** A verified list request, of either role, is exactly `getNotes` with the requester. */
  lemma ListReachesHandler(o: Oracles, s: Store, req: Request, env: Env)
    requires req.endpoint.ListNotesRoute?
    requires Requester(o, req).Some?
    ensures Handle(o, s, req, env) == Outcome(Notes.GetNotes(s, Requester(o, req)), s)
  {
    ProtectedRun(o, s, req);
    RolesAllowedOnNotes(Requester(o, req).value.role);
  }

  /** A verified update with a valid body is exactly `updateNote` with the requester and the parsed input. */
  lemma UpdateReachesHandler(o: Oracles, s: Store, req: Request, env: Env, input: UpdateNoteInput)
    requires req.endpoint.UpdateNoteRoute?
    requires Requester(o, req).Some?
    requires ParseUpdateNote(req.body, req.endpoint.id, o.isUuid) == Some(input)
    ensures Handle(o, s, req, env) == Notes.UpdateNote(s, Requester(o, req), req.endpoint.id, input)
  {
    NoteRoutesAdmitBothRoles(o, s, req);
    var u := Requester(o, req);
    var rest := Guards(req.endpoint)[1..];
    assert rest == [Validate(UpdateNoteSchema)] && rest[1..] == [];
    assert Accepts(o, req, UpdateNoteSchema);
    assert RunStages(o, s, req, rest, u) == Continue(u);
  }

  /** Only an update checks the id format; reading or deleting by id goes straight to the handler. */
  lemma OnlyUpdateChecksIdFormat(o: Oracles, s: Store, req: Request, env: Env)
    requires req.endpoint.GetNoteRoute? || req.endpoint.DeleteNoteRoute? || req.endpoint.UpdateNoteRoute?
    requires Requester(o, req).Some?
    ensures req.endpoint.GetNoteRoute? ==>
      Handle(o, s, req, env) == Outcome(Notes.GetNoteById(s, Requester(o, req), req.endpoint.id), s)
    ensures req.endpoint.DeleteNoteRoute? ==>
      Handle(o, s, req, env) == Notes.DeleteNote(s, Requester(o, req), req.endpoint.id)
    ensures req.endpoint.UpdateNoteRoute? && !o.isUuid(req.endpoint.id) ==>
      Handle(o, s, req, env) == Outcome(Invalid, s)
  {
    ProtectedRun(o, s, req);
    RolesAllowedOnNotes(Requester(o, req).value.role);
  }

  /** Login and health run no authentication: the Authorization header is ignored. */
  lemma PublicRoutesIgnoreToken(o: Oracles, s: Store, req: Request, env: Env, header: Option<string>)
    requires req.endpoint.IsPublic()
    ensures Handle(o, s, req, env) == Handle(o, s, req.(authorization := header), env)
  {
    var req' := req.(authorization := header);
    if req.endpoint.LoginRoute? {
      var stages := Pipeline(req.endpoint);
      assert stages[1..] == [];
      assert RunStage(o, s, req, stages[0], None) == RunStage(o, s, req', stages[0], None);
      assert RunStages(o, s, req, stages, None) == RunStages(o, s, req', stages, None);
    }
  }

  /**
   * The public routes go straight to their handlers: health always answers
   * 200, and login answers exactly as `login` does on the validated body,
   * or with the validation rejection.
   */
  lemma PublicRoutesReachHandler(o: Oracles, s: Store, req: Request, env: Env)
    requires req.endpoint.IsPublic()
    ensures req.endpoint.HealthRoute? ==> Handle(o, s, req, env) == Outcome(Reply(200, HealthJson), s)
    ensures req.endpoint.LoginRoute? && ParseLogin(req.body, o.isEmail).None? ==>
      Handle(o, s, req, env) == Outcome(Invalid, s)
    ensures req.endpoint.LoginRoute? && ParseLogin(req.body, o.isEmail).Some? ==>
      Handle(o, s, req, env) == Outcome(Auth.Login(o, s, ParseLogin(req.body, o.isEmail).value), s)
  {
  }

  /** Login and the read routes never change the store. */
  lemma ReadRoutesKeepStore(o: Oracles, s: Store, req: Request, env: Env)
    requires req.endpoint.LoginRoute? || req.endpoint.HealthRoute?
          || req.endpoint.ListNotesRoute? || req.endpoint.GetNoteRoute?
    ensures Handle(o, s, req, env).store == s
  {
  }

  /** With requests applied atomically, every route keeps the store valid. */
  lemma HandlePreservesValid(o: Oracles, s: Store, req: Request, env: Env)
    requires Valid(s)
    ensures Valid(Handle(o, s, req, env).store)
  {
    var g := RunStages(o, s, req, Pipeline(req.endpoint), None);
    if g.Continue? {
      match req.endpoint
      case UpgradeRoute(slug) =>
        Quota.UpgradePreservesValid(s, g.user, slug);
      case CreateNoteRoute =>
        HandlerSeesRequester(o, s, req);
        ProtectedRun(o, s, req);
        var me := Requester(o, req).value;
        assert me.role in NoteRoles;
        var afterRole := RunStages(o, s, req, Guards(req.endpoint)[1..], Some(me));
        assert Guards(req.endpoint)[1..] == [QuotaCheck, Validate(CreateNoteSchema)];
        assert CheckSubscriptionLimit(s, Some(me)).Continue?;
        match ParseCreateNote(req.body) {
          case None =>
          case Some(input) => Quota.CreatePreservesValid(s, me, input, env);
        }
      case UpdateNoteRoute(id) =>
        match ParseUpdateNote(req.body, id, o.isUuid) {
          case None =>
          case Some(input) => Quota.UpdatePreservesValid(s, g.user, id, input);
        }
      case DeleteNoteRoute(id) =>
        Quota.DeletePreservesValid(s, g.user, id);
      case _ =>
    }
  }

  /** The quota invariant over any sequence of atomically applied requests. */
  lemma {:induction false} ServePreservesValid(o: Oracles, s: Store, reqs: seq<(Request, Env)>)
    requires Valid(s)
    ensures Valid(Serve(o, s, reqs))
    decreases |reqs|
  {
    if |reqs| > 0 {
      HandlePreservesValid(o, s, reqs[0].0, reqs[0].1);
      ServePreservesValid(o, Handle(o, s, reqs[0].0, reqs[0].1).store, reqs[1..]);
    }
  }

  /** No route changes anything about a tenant but its plan, and none sets a plan back to FREE. */
  lemma HandlePlansOnlyRise(o: Oracles, s: Store, req: Request, env: Env)
    ensures Tenants.PlansOnlyRise(s.tenants, Handle(o, s, req, env).store.tenants)
  {
  }

  /** The tenant a request acts for: none unless its token verifies. */
  predicate ActsFor(o: Oracles, req: Request, tenantId: string) {
    Requester(o, req).Some? && Requester(o, req).value.tenantId == tenantId
  }

  /** No request alters the notes of a tenant it does not act for. */
  lemma HandleIsolatesTenants(o: Oracles, s: Store, req: Request, env: Env, other: string)
    requires !ActsFor(o, req, other)
    ensures NotesOf(Handle(o, s, req, env).store.notes, other) == NotesOf(s.notes, other)
  {
    var g := RunStages(o, s, req, Pipeline(req.endpoint), None);
    if g.Continue? && req.endpoint.IsNotesRoute() {
      HandlerSeesRequester(o, s, req);
      var me := Requester(o, req).value;
      var noUpdate := UpdateNoteInput(None, None);
      match req.endpoint {
        case CreateNoteRoute =>
          match ParseCreateNote(req.body) {
            case None =>
            case Some(x) => Isolation.WritesStayInTenant(s, me, "", x, noUpdate, env, other);
          }
        case UpdateNoteRoute(id) =>
          match ParseUpdateNote(req.body, id, o.isUuid) {
            case None =>
            case Some(x) => Isolation.WritesStayInTenant(s, me, id, CreateNoteInput("", None), x, env, other);
          }
        case DeleteNoteRoute(id) =>
          Isolation.WritesStayInTenant(s, me, id, CreateNoteInput("", None), noUpdate, env, other);
        case _ =>
      }
    }
  }

  /** The notes a response carries. */
  function NotesShown(r: Response): seq<Note> {
    match r
    case Reply(_, NoteJson(n)) => [n]
    case Reply(_, NoteListJson(ns)) => ns
    case _ => []
  }

  /** The note an update sends back, re-read by id alone, is still the requester's. */
  lemma UpdateAnswersOwnNote(s: Store, me: Identity, id: string, input: UpdateNoteInput)
    requires UniqueNoteIds(s.notes)
    ensures forall n :: n in NotesShown(Notes.UpdateNote(s, Some(me), id, input).response) ==>
      n.tenantId == me.tenantId
  {
  }

  /** An answering gate never shows a note. */
  lemma {:induction false} GatesShowNoNotes(o: Oracles, s: Store, req: Request,
                                            stages: seq<Stage>, user: Option<Identity>)
    ensures RunStages(o, s, req, stages, user).Halt? ==>
      NotesShown(RunStages(o, s, req, stages, user).response) == []
    decreases |stages|
  {
    if |stages| > 0 && RunStage(o, s, req, stages[0], user).Continue? {
      GatesShowNoNotes(o, s, req, stages[1..], RunStage(o, s, req, stages[0], user).user);
    }
  }

  /** Every note in any response belongs to the tenant the request acts for. */
  lemma ResponsesShowOwnNotesOnly(o: Oracles, s: Store, req: Request, env: Env)
    requires WellFormed(s)
    ensures forall n :: n in NotesShown(Handle(o, s, req, env).response) ==> ActsFor(o, req, n.tenantId)
  {
    var g := RunStages(o, s, req, Pipeline(req.endpoint), None);
    GatesShowNoNotes(o, s, req, Pipeline(req.endpoint), None);
    if g.Continue? && req.endpoint.IsNotesRoute() {
      HandlerSeesRequester(o, s, req);
      var me := Requester(o, req).value;
      match req.endpoint
      case UpdateNoteRoute(id) =>
        match ParseUpdateNote(req.body, id, o.isUuid) {
          case None =>
          case Some(input) => UpdateAnswersOwnNote(s, me, id, input);
        }
      case _ =>
    }
  }
}

=== FILE: http.dfy ===
/**
 * Requests, responses and the collaborators the server delegates to.
 *
 * Token signing and verification (jsonwebtoken), password comparison
 * (bcrypt) and the format checks of the schema library (UUID, e-mail) are
 * foreign code: they are the function-valued fields of `Oracles`, and every
 * statement about the server holds for all of them.
 */
module Http {
  import opened Domain

  /** A JSON body field as the server receives it. */
  datatype Value = Absent | Text(s: string) | NotText

  datatype Body = Body(email: Value, password: Value, title: Value, content: Value)

  const EmptyBody := Body(Absent, Absent, Absent, Absent)

  /** The routes of the API router, with their path parameters. */
  datatype Endpoint =
    | LoginRoute                        // POST /auth/login
    | HealthRoute                       // GET /health
    | UpgradeRoute(slug: string)        // POST /tenants/:slug/upgrade
    | CreateNoteRoute                   // POST /notes
    | ListNotesRoute                    // GET /notes
    | GetNoteRoute(id: string)          // GET /notes/:id
    | UpdateNoteRoute(id: string)       // PUT /notes/:id
    | DeleteNoteRoute(id: string)       // DELETE /notes/:id
  {
    predicate IsNotesRoute() {
      CreateNoteRoute? || ListNotesRoute? || GetNoteRoute? || UpdateNoteRoute? || DeleteNoteRoute?
    }

    predicate IsPublic() {
      LoginRoute? || HealthRoute?
    }
  }

  datatype Request = Request(authorization: Option<string>, endpoint: Endpoint, body: Body)

  /** The identity assertion carried by a token. */
  datatype Identity = Identity(userId: string, email: string, role: Role, tenantId: string, tenantSlug: string)

  /** Why the token library rejected a token; never visible to the caller. */
  datatype VerifyFailure = BadSignature | Expired | Malformed

  datatype Verification = Verified(payload: Identity) | Failed(cause: VerifyFailure)

  datatype Oracles = Oracles(
    verify: string -> Verification,
    sign: Identity -> string,
    passwordMatches: (string, string) -> bool,
    isUuid: string -> bool,
    isEmail: string -> bool)

  /** What the database supplies when it inserts a note: a new id and the current time. */
  datatype Env = Env(newNoteId: string, now: int)

  /** The tenant object of an upgrade response; `slug` is selected on one path only. */
  datatype TenantJson = TenantJson(id: string, name: string, slug: Option<string>, plan: Plan)

  datatype LoginUser = LoginUser(id: string, email: string, role: Role, tenantId: string,
                                 tenantName: string, tenantSlug: string)

  datatype Payload =
    | Message(text: string)
    | NoteJson(note: Note)
    | NoteListJson(notes: seq<Note>)
    | NullJson
    | UpgradeJson(message: string, tenant: TenantJson)
    | LoginJson(token: string, user: LoginUser)
    | HealthJson
    | NoContent

  /**
   * `Invalid` is the rejection sent by the schema-validation middleware,
   * whose status and body are outside this model.
   */
  datatype Response = Reply(status: int, payload: Payload) | Invalid

  /** What a gate decides: go on with the (possibly new) identity, or answer now. */
  datatype Gate = Continue(user: Option<Identity>) | Halt(response: Response)

  /** A mutating handler's response together with the store it leaves. */
  datatype Outcome = Outcome(response: Response, store: Store)

  function Deny(status: int, text: string): Response {
    Reply(status, Message(text))
  }

  const TokenMissingMessage := "Authentication token missing or malformed"
  const InvalidTokenMessage := "Invalid or expired token"
  const NotAuthenticatedMessage := "Not authenticated"
  const InsufficientPermissionsMessage := "Insufficient permissions"
  const TenantNotFoundMessage := "Tenant not found"
  const QuotaMessage := "Free plan limit reached (max 3 notes). Upgrade to Pro for unlimited notes."
  const NotYourTenantMessage := "You are not authorized to upgrade this tenant"
  const AlreadyProMessage := "Tenant is already on Pro plan"
  const UpgradedSuffix := " successfully upgraded to Pro plan."
  const NoteNotFoundMessage := "Note not found or not accessible"
  const InvalidCredentialsMessage := "Invalid credentials"
  const InternalErrorMessage := "Internal server error"
}

=== FILE: isolation.dfy ===
/**
 * Tenant isolation at the level of the note handlers: a handler called with
 * an identity of tenant A leaves every other tenant's notes exactly as they
 * were, and what it reads depends on tenant A's notes alone.
 */
module Isolation {
  import opened Domain
  import opened Http
  import opened Validation
  import opened Notes

  lemma NotesOfSingleton(n: Note, tenantId: string)
    ensures NotesOf([n], tenantId) == if n.tenantId == tenantId then [n] else []
  {
  }

  /** A new note counts for its own tenant only. */
  lemma AppendNote(ns: seq<Note>, n: Note, tenantId: string)
    ensures NotesOf(ns + [n], tenantId) ==
      if n.tenantId == tenantId then NotesOf(ns, tenantId) + [n] else NotesOf(ns, tenantId)
  {
    NotesOfAppend(ns, [n], tenantId);
    NotesOfSingleton(n, tenantId);
  }

  /** An update keeps every tenant's note count and every other tenant's notes. */
  lemma {:induction false} PatchKeepsTenants(ns: seq<Note>, id: string, owner: string,
                                             input: UpdateNoteInput, tenantId: string)
    ensures |NotesOf(PatchOwned(ns, id, owner, input), tenantId)| == |NotesOf(ns, tenantId)|
    ensures tenantId != owner ==> NotesOf(PatchOwned(ns, id, owner, input), tenantId) == NotesOf(ns, tenantId)
  {
    if |ns| > 0 {
      var r := PatchOwned(ns, id, owner, input);
      PatchKeepsTenants(ns[1..], id, owner, input, tenantId);
      assert r == [r[0]] + PatchOwned(ns[1..], id, owner, input);
      assert ns == [ns[0]] + ns[1..];
      NotesOfAppend([r[0]], PatchOwned(ns[1..], id, owner, input), tenantId);
      NotesOfAppend([ns[0]], ns[1..], tenantId);
      NotesOfSingleton(r[0], tenantId);
      NotesOfSingleton(ns[0], tenantId);
    }
  }

  /** A delete never removes another tenant's note, nor adds to any tenant. */
  lemma RemoveKeepsTenants(ns: seq<Note>, id: string, owner: string, tenantId: string)
    ensures |NotesOf(RemoveOwned(ns, id, owner), tenantId)| <= |NotesOf(ns, tenantId)|
    ensures tenantId != owner ==> NotesOf(RemoveOwned(ns, id, owner), tenantId) == NotesOf(ns, tenantId)
  {
    FilterCommutes(ns, NotOwned(id, owner), OfTenant(tenantId));
    if tenantId != owner {
      FilterOfFilter(ns, NotOwned(id, owner), OfTenant(tenantId));
    }
  }

  /** Isolation of `createNote`, `updateNote` and `deleteNote`. */
  lemma WritesStayInTenant(s: Store, me: Identity, id: string, create: CreateNoteInput,
                           update: UpdateNoteInput, env: Env, other: string)
    requires other != me.tenantId
    ensures NotesOf(CreateNote(s, Some(me), create, env).store.notes, other) == NotesOf(s.notes, other)
    ensures NotesOf(UpdateNote(s, Some(me), id, update).store.notes, other) == NotesOf(s.notes, other)
    ensures NotesOf(DeleteNote(s, Some(me), id).store.notes, other) == NotesOf(s.notes, other)
  {
    var created := CreateNote(s, Some(me), create, env);
    if created.response.Reply? && created.response.status == 201 {
      AppendNote(s.notes, created.response.payload.note, other);
    }
    PatchKeepsTenants(s.notes, id, me.tenantId, update, other);
    RemoveKeepsTenants(s.notes, id, me.tenantId, other);
  }

  /** The note `getNoteById` finds: the first of `tenantId` with that id. */
  function FirstOwned(ns: seq<Note>, id: string, tenantId: string): Option<Note> {
    match FirstWhere(ns, OwnedBy(id, tenantId))
    case None => None
    case Some(k) => Some(ns[k])
  }

  /** One step of the search. */
  lemma FirstOwnedCons(x: Note, rest: seq<Note>, id: string, tenantId: string)
    ensures FirstOwned([x] + rest, id, tenantId) ==
      if Owned(x, id, tenantId) then Some(x) else FirstOwned(rest, id, tenantId)
  {
    var ns := [x] + rest;
    assert ns[1..] == rest;
    if !Owned(x, id, tenantId) && FirstWhere(rest, OwnedBy(id, tenantId)).Some? {
      var k := FirstWhere(rest, OwnedBy(id, tenantId)).value;
      assert ns[k + 1] == rest[k];
    }
  }

  /** The search finds the same note whether the other tenants' notes are there or not. */
  lemma {:induction false} FirstOwnedAmongOwnNotes(ns: seq<Note>, id: string, tenantId: string)
    ensures FirstOwned(ns, id, tenantId) == FirstOwned(NotesOf(ns, tenantId), id, tenantId)
    decreases |ns|
  {
    if |ns| > 0 {
      var x, rest := ns[0], ns[1..];
      assert ns == [x] + rest;
      FirstOwnedAmongOwnNotes(rest, id, tenantId);
      FirstOwnedCons(x, rest, id, tenantId);
      NotesOfAppend([x], rest, tenantId);
      NotesOfSingleton(x, tenantId);
      var ownRest := NotesOf(rest, tenantId);
      if x.tenantId == tenantId {
        assert NotesOf(ns, tenantId) == [x] + ownRest;
        FirstOwnedCons(x, ownRest, id, tenantId);
      } else {
        assert NotesOf(ns, tenantId) == ownRest;
        assert !Owned(x, id, tenantId);
      }
    }
  }

  /**
   * What `getNotes` and `getNoteById` answer is fixed by the requester's own
   * notes: a note of another tenant and a missing note look the same.
   */
  lemma ReadsSeeOnlyOwnTenant(s1: Store, s2: Store, me: Identity, id: string)
    requires NotesOf(s1.notes, me.tenantId) == NotesOf(s2.notes, me.tenantId)
    ensures GetNotes(s1, Some(me)) == GetNotes(s2, Some(me))
    ensures GetNoteById(s1, Some(me), id) == GetNoteById(s2, Some(me), id)
  {
    FirstOwnedAmongOwnNotes(s1.notes, id, me.tenantId);
    FirstOwnedAmongOwnNotes(s2.notes, id, me.tenantId);
  }
}

=== FILE: lifecycle.dfy ===
/**
 * How the handlers fit together over a note's life and a session's: what a
 * later read sees after a create, an update or a delete, that repeating an
 * update or a delete changes nothing more, and that the token a login hands
 * out authenticates as the user that login described.
 */
module Lifecycle {
  import opened Domain
  import opened Http
  import opened Validation
  import opened Middleware
  import opened Notes
  import Auth
  import Guarantees

  /** A note just created is found by its id and listed for its tenant. */
  lemma CreateThenRead(s: Store, me: Identity, input: CreateNoteInput, env: Env)
    requires !IdTaken(s.notes, env.newNoteId)
    ensures var out := CreateNote(s, Some(me), input, env);
      && out.response.Reply? && out.response.payload.NoteJson?
      && GetNoteById(out.store, Some(me), env.newNoteId) == Reply(200, NoteJson(out.response.payload.note))
      && out.response.payload.note in GetNotes(out.store, Some(me)).payload.notes
  {
    var out := CreateNote(s, Some(me), input, env);
    var n := out.response.payload.note;
    assert n in out.store.notes && Owned(n, env.newNoteId, me.tenantId);
    var r := GetNoteById(out.store, Some(me), env.newNoteId);
    assert r.payload.note in s.notes + [n];
    assert r.payload.note !in s.notes;
  }

  /** The note an update sends back is the patched note. */
  lemma UpdateAnswersPatched(s: Store, me: Identity, id: string, input: UpdateNoteInput, k: nat)
    requires UniqueNoteIds(s.notes)
    requires k < |s.notes| && Owned(s.notes[k], id, me.tenantId)
    ensures UpdateNote(s, Some(me), id, input).response == Reply(200, NoteJson(Patch(s.notes[k], input)))
  {
  }

  /** A note read back by id after an update is the patched note. */
  lemma UpdateThenRead(s: Store, me: Identity, id: string, input: UpdateNoteInput, k: nat)
    requires UniqueNoteIds(s.notes)
    requires k < |s.notes| && Owned(s.notes[k], id, me.tenantId)
    ensures GetNoteById(UpdateNote(s, Some(me), id, input).store, Some(me), id)
         == Reply(200, NoteJson(Patch(s.notes[k], input)))
  {
    var notes' := UpdateNote(s, Some(me), id, input).store.notes;
    assert notes'[k] == Patch(s.notes[k], input) && notes'[k] in notes';
  }

  /** After a delete the note is gone for its tenant, and deleting it again is a 404 that changes nothing. */
  lemma DeleteThenRead(s: Store, me: Identity, id: string)
    ensures var out := DeleteNote(s, Some(me), id);
      && GetNoteById(out.store, Some(me), id) == Deny(404, NoteNotFoundMessage)
      && DeleteNote(out.store, Some(me), id) == Outcome(Deny(404, NoteNotFoundMessage), out.store)
  {
  }

  /** Sending the same update twice leaves the store as sending it once. */
  lemma UpdateTwiceIsOnce(s: Store, user: Option<Identity>, id: string, input: UpdateNoteInput)
    ensures var once := UpdateNote(s, user, id, input).store;
      UpdateNote(once, user, id, input).store == once
  {
  }

  /**
   * With a token library whose verification accepts what it signed, the
   * token a login returns authenticates later requests as exactly the user
   * the login response describes.
   */
  lemma LoginTokenAuthenticates(o: Oracles, s: Store, input: LoginInput, req: Request)
    requires forall id :: o.verify(o.sign(id)) == Verified(id)
    requires Auth.Login(o, s, input).Reply? && Auth.Login(o, s, input).status == 200
    requires ' ' !in Auth.Login(o, s, input).payload.token
    requires req.authorization == Some(BearerHeader(Auth.Login(o, s, input).payload.token))
    ensures var u := Auth.Login(o, s, input).payload.user;
      Guarantees.Requester(o, req) == Some(Identity(u.id, u.email, u.role, u.tenantId, u.tenantSlug))
  {
    BearerRoundTrip(Auth.Login(o, s, input).payload.token);
  }
}

=== FILE: middleware.dfy ===
/**
 * The three gates of `auth.middleware.ts`.  A gate receives the identity
 * attached by earlier gates and either lets the request continue or answers
 * it.  No gate returns a store, so no gate can change one.
 */
module Middleware {
  import opened Domain
  import opened Text
  import opened Http

  const BearerPrefix := "Bearer "

  /** The header the web client attaches: `Bearer ${token}`. */
  function BearerHeader(token: string): string {
    BearerPrefix + token
  }

  predicate WellFormedHeader(authorization: Option<string>) {
    authorization.Some? && StartsWith(authorization.value, BearerPrefix)
  }

  /** After the prefix, the header splits into "Bearer" and the fields of the rest. */
  lemma BearerFields(header: string)
    requires StartsWith(header, BearerPrefix)
    ensures Split(header, ' ') == ["Bearer"] + Split(header[|BearerPrefix|..], ' ')
  {
    assert header == "Bearer" + [' '] + header[|BearerPrefix|..];
    SplitAfterField("Bearer", ' ', header[|BearerPrefix|..]);
  }

  /** `authHeader.split(' ')[1]`: the text after the prefix, up to the next space. */
  function BearerToken(header: string): (token: string)
    requires StartsWith(header, BearerPrefix)
    ensures token == TakeUntil(header[|BearerPrefix|..], ' ')
  {
    BearerFields(header);
    SplitHead(header[|BearerPrefix|..], ' ');
    Split(header, ' ')[1]
  }

  /** The header "Bearer " alone hands the empty token to verification. */
  lemma EmptyBearerToken()
    ensures StartsWith(BearerPrefix, BearerPrefix)
    ensures BearerToken(BearerPrefix) == ""
  {
  }

  /** The server reads back exactly the token the client put in the header. */
  lemma BearerRoundTrip(token: string)
    requires ' ' !in token
    ensures WellFormedHeader(Some(BearerHeader(token)))
    ensures BearerToken(BearerHeader(token)) == token
  {
  }

  /** `authenticateJWT`. */
  function AuthenticateJWT(o: Oracles, authorization: Option<string>): (g: Gate)
    ensures !WellFormedHeader(authorization) ==> g == Halt(Deny(401, TokenMissingMessage))
    ensures g.Continue? ==>
      && WellFormedHeader(authorization)
      && o.verify(BearerToken(authorization.value)).Verified?
      && g.user == Some(o.verify(BearerToken(authorization.value)).payload)
    ensures WellFormedHeader(authorization) && o.verify(BearerToken(authorization.value)).Failed? ==>
      g == Halt(Deny(403, InvalidTokenMessage))
  {
    if !WellFormedHeader(authorization) then
      Halt(Deny(401, TokenMissingMessage))
    else
      match o.verify(BearerToken(authorization.value))
      case Verified(payload) => Continue(Some(payload))
      case Failed(_) => Halt(Deny(403, InvalidTokenMessage))
  }

  /** Every verification failure looks the same: the cause never reaches the caller. */
  lemma VerificationFailureIsUniform(o1: Oracles, o2: Oracles, header: string)
    requires WellFormedHeader(Some(header))
    requires o1.verify(BearerToken(header)).Failed? && o2.verify(BearerToken(header)).Failed?
    ensures AuthenticateJWT(o1, Some(header)) == AuthenticateJWT(o2, Some(header))
  {
  }

  /** `authorizeRole(allowedRoles)`: a pure check of the identity's role. */
  function AuthorizeRole(allowed: seq<Role>, user: Option<Identity>): (g: Gate)
    ensures user.None? ==> g == Halt(Deny(401, NotAuthenticatedMessage))
    ensures user.Some? ==> (g.Continue? <==> user.value.role in allowed)
    ensures user.Some? && g.Halt? ==> g.response == Deny(403, InsufficientPermissionsMessage)
    ensures g.Continue? ==> g.user == user
  {
    if user.None? then Halt(Deny(401, NotAuthenticatedMessage))
    else if user.value.role !in allowed then Halt(Deny(403, InsufficientPermissionsMessage))
    else Continue(user)
  }

  /** The FREE-plan quota is exhausted for this tenant record. */
  predicate AtQuota(s: Store, t: Tenant) {
    t.plan == FREE && |NotesOf(s.notes, t.id)| >= FreeNoteLimit
  }

  /**
   * `checkSubscriptionLimit`: the plan is read from the store, never from
   * the token (which carries none); notes are only counted on FREE.
   */
  function CheckSubscriptionLimit(s: Store, user: Option<Identity>): (g: Gate)
    ensures user.None? ==> g == Halt(Deny(401, NotAuthenticatedMessage))
    ensures user.Some? && TenantById(s.tenants, user.value.tenantId).None? ==>
      g == Halt(Deny(404, TenantNotFoundMessage))
    ensures user.Some? && TenantById(s.tenants, user.value.tenantId).Some? ==>
      (g.Halt? <==> AtQuota(s, TenantById(s.tenants, user.value.tenantId).value))
    ensures user.Some? && TenantById(s.tenants, user.value.tenantId).Some? && g.Halt? ==>
      g.response == Deny(403, QuotaMessage)
    ensures g.Continue? ==> g.user == user
  {
    if user.None? then Halt(Deny(401, NotAuthenticatedMessage))
    else match TenantById(s.tenants, user.value.tenantId)
      case None => Halt(Deny(404, TenantNotFoundMessage))
      case Some(tenant) =>
        if tenant.plan == FREE && |NotesOf(s.notes, user.value.tenantId)| >= FreeNoteLimit then
          Halt(Deny(403, QuotaMessage))
        else
          Continue(user)
  }
}

=== FILE: notes.dfy ===
/**
 * The note handlers of `notes.controller.ts`.  Every query is filtered by
 * the requester's tenant as well as by id, so a note of another tenant is
 * indistinguishable from a missing one.
 */
module Notes {
  import opened Domain
  import opened Http
  import opened Validation
  import opened Ordering

  /** The note is the one addressed by `id` within `tenantId` (`where: { id, tenantId }`). */
  predicate Owned(n: Note, id: string, tenantId: string) {
    n.id == id && n.tenantId == tenantId
  }

  /** The row filter `where: { id, tenantId }`. */
  function OwnedBy(id: string, tenantId: string): Note -> bool {
    (n: Note) => Owned(n, id, tenantId)
  }

  /** The row filter of `deleteMany`, negated: the notes that stay. */
  function NotOwned(id: string, tenantId: string): Note -> bool {
    (n: Note) => !Owned(n, id, tenantId)
  }

  predicate HasOwned(ns: seq<Note>, id: string, tenantId: string) {
    exists n :: n in ns && Owned(n, id, tenantId)
  }

  predicate IdTaken(ns: seq<Note>, id: string) {
    exists n :: n in ns && n.id == id
  }

  /** `prisma.note.create`: a note id already in use violates the key and lands in the 500 path. */
  function CreateNote(s: Store, user: Option<Identity>, input: CreateNoteInput, env: Env): (out: Outcome)
    ensures user.None? ==> out == Outcome(Deny(401, NotAuthenticatedMessage), s)
    ensures user.Some? && IdTaken(s.notes, env.newNoteId) ==> out == Outcome(Deny(500, InternalErrorMessage), s)
    ensures out.response.Reply? && out.response.status == 201 <==> user.Some? && !IdTaken(s.notes, env.newNoteId)
    ensures out.response.Reply? && out.response.status == 201 ==>
      && out.response.payload.NoteJson?
      && var n := out.response.payload.note;
      && out.store == s.(notes := s.notes + [n])
      && n.id == env.newNoteId && n.createdAt == env.now
      && n.title == input.title && n.content == input.content
      && n.tenantId == user.value.tenantId && n.userId == user.value.userId
  {
    if user.None? then Outcome(Deny(401, NotAuthenticatedMessage), s)
    else if IdTaken(s.notes, env.newNoteId) then Outcome(Deny(500, InternalErrorMessage), s)
    else
      var note := Note(env.newNoteId, input.title, input.content,
                       user.value.tenantId, user.value.userId, env.now);
      Outcome(Reply(201, NoteJson(note)), s.(notes := s.notes + [note]))
  }

  /** `getNotes`: the requester's tenant's notes, newest first. */
  function GetNotes(s: Store, user: Option<Identity>): (r: Response)
    ensures user.None? ==> r == Deny(401, NotAuthenticatedMessage)
    ensures user.Some? ==>
      && r.Reply? && r.status == 200 && r.payload.NoteListJson?
      && NewestFirst(r.payload.notes)
      && multiset(r.payload.notes) == multiset(NotesOf(s.notes, user.value.tenantId))
      && (forall n :: n in r.payload.notes <==> n in s.notes && n.tenantId == user.value.tenantId)
  {
    if user.None? then Deny(401, NotAuthenticatedMessage)
    else
      var listed := SortNewestFirst(NotesOf(s.notes, user.value.tenantId));
      assert forall n :: n in listed <==> n in multiset(listed);
      Reply(200, NoteListJson(listed))
  }

  /** `getNoteById`. */
  function GetNoteById(s: Store, user: Option<Identity>, id: string): (r: Response)
    ensures user.None? ==> r == Deny(401, NotAuthenticatedMessage)
    ensures user.Some? ==> (r.Reply? && r.status == 200 <==> HasOwned(s.notes, id, user.value.tenantId))
    ensures user.Some? && r.Reply? && r.status == 200 ==>
      r.payload.NoteJson? && r.payload.note in s.notes && Owned(r.payload.note, id, user.value.tenantId)
    ensures user.Some? && !HasOwned(s.notes, id, user.value.tenantId) ==> r == Deny(404, NoteNotFoundMessage)
  {
    if user.None? then Deny(401, NotAuthenticatedMessage)
    else match FirstWhere(s.notes, OwnedBy(id, user.value.tenantId))
      case None => Deny(404, NoteNotFoundMessage)
      case Some(k) => Reply(200, NoteJson(s.notes[k]))
  }

  /** The columns an update writes: an absent field keeps its value. */
  function Patch(n: Note, input: UpdateNoteInput): (m: Note)
    ensures m.(title := n.title, content := n.content) == n
    ensures input.title.Some? ==> m.title == input.title.value
    ensures input.title.None? ==> m.title == n.title
    ensures input.content.Some? ==> m.content == input.content
    ensures input.content.None? ==> m.content == n.content
  {
    n.(title := if input.title.Some? then input.title.value else n.title,
       content := if input.content.Some? then input.content else n.content)
  }

  /** `prisma.note.updateMany({ where: { id, tenantId }, data })`. */
  function PatchOwned(ns: seq<Note>, id: string, tenantId: string, input: UpdateNoteInput): (r: seq<Note>)
    ensures |r| == |ns|
    ensures forall i :: 0 <= i < |ns| ==> r[i] == if Owned(ns[i], id, tenantId) then Patch(ns[i], input) else ns[i]
  {
    if |ns| == 0 then []
    else
      [if Owned(ns[0], id, tenantId) then Patch(ns[0], input) else ns[0]]
        + PatchOwned(ns[1..], id, tenantId, input)
  }

  /**
   * `updateNote`: the update is filtered by tenant, but the note sent back
   * is re-read by id alone (`findUnique({ where: { id } })`).
   */
  function UpdateNote(s: Store, user: Option<Identity>, id: string, input: UpdateNoteInput): (out: Outcome)
    ensures user.None? ==> out == Outcome(Deny(401, NotAuthenticatedMessage), s)
    ensures user.Some? && !HasOwned(s.notes, id, user.value.tenantId) ==>
      out == Outcome(Deny(404, NoteNotFoundMessage), s)
    ensures user.Some? && HasOwned(s.notes, id, user.value.tenantId) ==>
      && out.response.Reply? && out.response.status == 200
      && out.store.tenants == s.tenants && out.store.users == s.users
      && |out.store.notes| == |s.notes|
      && forall i :: 0 <= i < |s.notes| ==>
           && out.store.notes[i].(title := s.notes[i].title, content := s.notes[i].content) == s.notes[i]
           && (!Owned(s.notes[i], id, user.value.tenantId) ==> out.store.notes[i] == s.notes[i])
           && (Owned(s.notes[i], id, user.value.tenantId) ==> out.store.notes[i] == Patch(s.notes[i], input))
  {
    if user.None? then Outcome(Deny(401, NotAuthenticatedMessage), s)
    else if !HasOwned(s.notes, id, user.value.tenantId) then Outcome(Deny(404, NoteNotFoundMessage), s)
    else
      var notes' := PatchOwned(s.notes, id, user.value.tenantId, input);
      var response := match FirstWhere(notes', (n: Note) => n.id == id)
        case None => Reply(200, NullJson)
        case Some(k) => Reply(200, NoteJson(notes'[k]));
      Outcome(response, s.(notes := notes'))
  }

  /** `prisma.note.deleteMany({ where: { id, tenantId } })`: what is left. */
  function RemoveOwned(ns: seq<Note>, id: string, tenantId: string): (r: seq<Note>)
    ensures forall n :: n in r <==> n in ns && !Owned(n, id, tenantId)
    ensures forall n {:trigger multiset(r)[n]} ::
      multiset(r)[n] == if Owned(n, id, tenantId) then 0 else multiset(ns)[n]
  {
    Filter(ns, NotOwned(id, tenantId))
  }

  lemma DeleteShrinks(ns: seq<Note>, id: string, tenantId: string)
    requires HasOwned(ns, id, tenantId)
    ensures |RemoveOwned(ns, id, tenantId)| < |ns|
  {
    var gone :| gone in ns && Owned(gone, id, tenantId);
    FilterShrinks(ns, NotOwned(id, tenantId), gone);
  }

  /** `deleteNote`. */
  function DeleteNote(s: Store, user: Option<Identity>, id: string): (out: Outcome)
    ensures user.None? ==> out == Outcome(Deny(401, NotAuthenticatedMessage), s)
    ensures user.Some? && !HasOwned(s.notes, id, user.value.tenantId) ==>
      out == Outcome(Deny(404, NoteNotFoundMessage), s)
    ensures user.Some? && HasOwned(s.notes, id, user.value.tenantId) ==>
      && out.response == Reply(204, NoContent)
      && out.store == s.(notes := out.store.notes)
      && (forall n :: n in out.store.notes <==> n in s.notes && !Owned(n, id, user.value.tenantId))
      && |out.store.notes| < |s.notes|
  {
    if user.None? then Outcome(Deny(401, NotAuthenticatedMessage), s)
    else if !HasOwned(s.notes, id, user.value.tenantId) then Outcome(Deny(404, NoteNotFoundMessage), s)
    else
      var notes' := RemoveOwned(s.notes, id, user.value.tenantId);
      DeleteShrinks(s.notes, id, user.value.tenantId);
      Outcome(Reply(204, NoContent), s.(notes := notes'))
  }
}

=== FILE: ordering.dfy ===
/**
 * `orderBy: { createdAt: 'desc' }`: notes listed newest first.  The order
 * among notes with equal timestamps is left to the database; the insertion
 * sort below is one admissible choice, and its contract says only what every
 * choice satisfies.
 */
module Ordering {
  import opened Domain

  predicate NewestFirst(ns: seq<Note>) {
    forall i, j :: 0 <= i < j < |ns| ==> ns[i].createdAt >= ns[j].createdAt
  }

  /** No note in `ns` is newer than `stamp`. */
  predicate NoneAfter(ns: seq<Note>, stamp: int) {
    forall k :: 0 <= k < |ns| ==> ns[k].createdAt <= stamp
  }

  lemma ConsNewestFirst(x: Note, ns: seq<Note>)
    requires NewestFirst(ns) && NoneAfter(ns, x.createdAt)
    ensures NewestFirst([x] + ns)
  {
  }

  /** A bound on every element carries over to any rearrangement. */
  lemma NoneAfterPermutation(a: seq<Note>, b: seq<Note>, stamp: int)
    requires multiset(a) == multiset(b) && NoneAfter(b, stamp)
    ensures NoneAfter(a, stamp)
  {
    forall k | 0 <= k < |a|
      ensures a[k].createdAt <= stamp
    {
      assert a[k] in multiset(b);
      var m :| 0 <= m < |b| && b[m] == a[k];
    }
  }

  /** In a newest-first list the head is the newest, and the rest is newest-first. */
  lemma HeadIsNewest(ns: seq<Note>)
    requires |ns| > 0 && NewestFirst(ns)
    ensures NoneAfter(ns, ns[0].createdAt)
    ensures NewestFirst(ns[1..]) && NoneAfter(ns[1..], ns[0].createdAt)
  {
  }

  /** Putting an older note below the head: the head stays in front of the inserted tail. */
  lemma ConsAfterInsert(head: Note, rest: seq<Note>, n: Note, tail: seq<Note>)
    requires NewestFirst(tail) && NoneAfter(rest, head.createdAt) && n.createdAt < head.createdAt
    requires multiset(tail) == multiset(rest) + multiset{n}
    ensures NewestFirst([head] + tail)
    ensures multiset([head] + tail) == multiset([head] + rest) + multiset{n}
  {
    assert multiset(rest + [n]) == multiset(rest) + multiset{n};
    NoneAfterPermutation(tail, rest + [n], head.createdAt);
    ConsNewestFirst(head, tail);
  }

  function InsertByDate(n: Note, ns: seq<Note>): (r: seq<Note>)
    requires NewestFirst(ns)
    ensures NewestFirst(r)
    ensures multiset(r) == multiset(ns) + multiset{n}
  {
    if |ns| == 0 then [n]
    else
      HeadIsNewest(ns);
      if n.createdAt >= ns[0].createdAt then
        ConsNewestFirst(n, ns);
        [n] + ns
      else
        var tail := InsertByDate(n, ns[1..]);
        ConsAfterInsert(ns[0], ns[1..], n, tail);
        assert [ns[0]] + ns[1..] == ns;
        [ns[0]] + tail
  }

  function SortNewestFirst(ns: seq<Note>): (r: seq<Note>)
    ensures NewestFirst(r)
    ensures multiset(r) == multiset(ns)
  {
    if |ns| == 0 then []
    else
      assert ns == [ns[0]] + ns[1..];
      InsertByDate(ns[0], SortNewestFirst(ns[1..]))
  }
}

=== FILE: quota.dfy ===
/**
 * The FREE-plan quota as an invariant of the store: with requests applied
 * one at a time, every handler that can run after the gates keeps
 * `Valid` — unique keys, and no FREE tenant above the note limit.
 */
module Quota {
  import opened Domain
  import opened Http
  import opened Validation
  import opened Middleware
  import opened Notes
  import opened Tenants
  import opened Isolation

  lemma SameIdSameTenant(ts: seq<Tenant>, a: Tenant, b: Tenant)
    requires UniqueTenants(ts) && a in ts && b in ts && a.id == b.id
    ensures a == b
  {
  }

  lemma UniqueAfterAppend(ns: seq<Note>, n: Note)
    requires UniqueNoteIds(ns) && !IdTaken(ns, n.id)
    ensures UniqueNoteIds(ns + [n])
  {
  }

  lemma {:induction false} UniqueAfterFilter(ns: seq<Note>, p: Note -> bool)
    requires UniqueNoteIds(ns)
    ensures UniqueNoteIds(Filter(ns, p))
  {
    if |ns| > 0 {
      UniqueAfterFilter(ns[1..], p);
      var tail := Filter(ns[1..], p);
      var r := Filter(ns, p);
      if p(ns[0]) {
        assert r == [ns[0]] + tail;
        forall i, j | 0 <= i < j < |r|
          ensures r[i].id != r[j].id
        {
          if i == 0 {
            assert r[j] == tail[j - 1] && tail[j - 1] in ns[1..];
            var k :| 0 <= k < |ns[1..]| && ns[1..][k] == r[j];
            assert ns[k + 1] == r[j];
          } else {
            assert r[i] == tail[i - 1] && r[j] == tail[j - 1];
          }
        }
      } else {
        assert r == tail;
      }
    }
  }

  /** A note is inserted only where the quota gate found room for it. */
  lemma CreatePreservesValid(s: Store, me: Identity, input: CreateNoteInput, env: Env)
    requires Valid(s)
    requires CheckSubscriptionLimit(s, Some(me)).Continue?
    ensures Valid(CreateNote(s, Some(me), input, env).store)
  {
    var out := CreateNote(s, Some(me), input, env);
    if out.response.Reply? && out.response.status == 201 {
      var n := out.response.payload.note;
      UniqueAfterAppend(s.notes, n);
      var home := TenantById(s.tenants, me.tenantId).value;
      forall t | t in out.store.tenants && t.plan == FREE
        ensures |NotesOf(out.store.notes, t.id)| <= FreeNoteLimit
      {
        AppendNote(s.notes, n, t.id);
        if t.id == me.tenantId {
          SameIdSameTenant(s.tenants, t, home);
        }
      }
    }
  }

  lemma UpdatePreservesValid(s: Store, user: Option<Identity>, id: string, input: UpdateNoteInput)
    requires Valid(s)
    ensures Valid(UpdateNote(s, user, id, input).store)
  {
    var out := UpdateNote(s, user, id, input);
    if user.Some? && HasOwned(s.notes, id, user.value.tenantId) {
      assert out.store.notes == PatchOwned(s.notes, id, user.value.tenantId, input);
      forall t | t in out.store.tenants && t.plan == FREE
        ensures |NotesOf(out.store.notes, t.id)| <= FreeNoteLimit
      {
        PatchKeepsTenants(s.notes, id, user.value.tenantId, input, t.id);
      }
      forall i, j | 0 <= i < j < |out.store.notes|
        ensures out.store.notes[i].id != out.store.notes[j].id
      {
        assert out.store.notes[i].id == s.notes[i].id;
        assert out.store.notes[j].id == s.notes[j].id;
      }
    }
  }

  lemma DeletePreservesValid(s: Store, user: Option<Identity>, id: string)
    requires Valid(s)
    ensures Valid(DeleteNote(s, user, id).store)
  {
    var out := DeleteNote(s, user, id);
    if user.Some? && HasOwned(s.notes, id, user.value.tenantId) {
      assert out.store.notes == RemoveOwned(s.notes, id, user.value.tenantId);
      UniqueAfterFilter(s.notes, NotOwned(id, user.value.tenantId));
      forall t | t in out.store.tenants && t.plan == FREE
        ensures |NotesOf(out.store.notes, t.id)| <= FreeNoteLimit
      {
        RemoveKeepsTenants(s.notes, id, user.value.tenantId, t.id);
      }
    }
  }

  /** Upgrading only moves tenants out of FREE, so no FREE tenant gains notes. */
  lemma UpgradePreservesValid(s: Store, user: Option<Identity>, slug: string)
    requires Valid(s)
    ensures Valid(UpgradeTenantPlan(s, user, slug).store)
  {
  }
}

=== FILE: routes.dfy ===
/**
 * The route table of `routes.ts` and the request pipeline: the gates of a
 * route run in order, the first that answers ends the request with the
 * store untouched, and only a request that passes every gate reaches its
 * handler.
 */
module Routes {
  import opened Domain
  import opened Http
  import opened Validation
  import opened Middleware
  import Notes
  import Tenants
  import Auth

  datatype Schema = LoginSchema | UpgradeSchema | CreateNoteSchema | UpdateNoteSchema

  datatype Stage =
    | Authenticate
    | RequireRole(allowed: seq<Role>)
    | QuotaCheck
    | Validate(schema: Schema)

  const NoteRoles: seq<Role> := [MEMBER, ADMIN]

  /**
   * The gates each route declares, in order.  A public route runs no gate
   * but schema validation.  A protected route starts with
   * authentication and authenticates nowhere else, then checks the role,
   * once; only note creation checks the quota.  Each schema is checked on
   * its own route and no other, and validation, where present, is last.
   */
  function Pipeline(e: Endpoint): (r: seq<Stage>)
    ensures e.IsPublic() ==> forall i :: 0 <= i < |r| ==> r[i].Validate?
    ensures !e.IsPublic() ==>
      && |r| >= 2 && r[0] == Authenticate
      && r[1] == RequireRole(if e.UpgradeRoute? then [ADMIN] else NoteRoles)
      && forall i :: 1 <= i < |r| ==> !r[i].Authenticate?
    ensures !e.IsPublic() ==> forall i :: 2 <= i < |r| ==> !r[i].RequireRole?
    ensures QuotaCheck in r <==> e.CreateNoteRoute?
    ensures Validate(LoginSchema) in r <==> e.LoginRoute?
    ensures Validate(UpgradeSchema) in r <==> e.UpgradeRoute?
    ensures Validate(CreateNoteSchema) in r <==> e.CreateNoteRoute?
    ensures Validate(UpdateNoteSchema) in r <==> e.UpdateNoteRoute?
    ensures forall i :: 0 <= i < |r| - 1 ==> !r[i].Validate?
  {
    match e
    case LoginRoute => [Validate(LoginSchema)]
    case HealthRoute => []
    case UpgradeRoute(_) => [Authenticate, RequireRole([ADMIN]), Validate(UpgradeSchema)]
    case CreateNoteRoute => [Authenticate, RequireRole(NoteRoles), QuotaCheck, Validate(CreateNoteSchema)]
    case ListNotesRoute => [Authenticate, RequireRole(NoteRoles)]
    case GetNoteRoute(_) => [Authenticate, RequireRole(NoteRoles)]
    case UpdateNoteRoute(_) => [Authenticate, RequireRole(NoteRoles), Validate(UpdateNoteSchema)]
    case DeleteNoteRoute(_) => [Authenticate, RequireRole(NoteRoles)]
  }

  /** The path parameter a route carries, or "" for a route without one. */
  function PathParam(e: Endpoint): string {
    match e
    case UpgradeRoute(slug) => slug
    case GetNoteRoute(id) => id
    case UpdateNoteRoute(id) => id
    case DeleteNoteRoute(id) => id
    case _ => ""
  }

  predicate Accepts(o: Oracles, req: Request, schema: Schema) {
    match schema
    case LoginSchema => ParseLogin(req.body, o.isEmail).Some?
    case UpgradeSchema => ValidSlug(PathParam(req.endpoint))
    case CreateNoteSchema => ParseCreateNote(req.body).Some?
    case UpdateNoteSchema => ParseUpdateNote(req.body, PathParam(req.endpoint), o.isUuid).Some?
  }

  function RunStage(o: Oracles, s: Store, req: Request, stage: Stage, user: Option<Identity>): Gate {
    match stage
    case Authenticate => AuthenticateJWT(o, req.authorization)
    case RequireRole(allowed) => AuthorizeRole(allowed, user)
    case QuotaCheck => CheckSubscriptionLimit(s, user)
    case Validate(schema) => if Accepts(o, req, schema) then Continue(user) else Halt(Invalid)
  }

  /**
   * Run the gates left to right; the first `Halt` is the answer.  A gate's
   * answer is always a refusal: the validation rejection, or 401, 403 or
   * 404 with a message.  With no gate, the request goes on unchanged.
   */
  function RunStages(o: Oracles, s: Store, req: Request, stages: seq<Stage>, user: Option<Identity>): (g: Gate)
    ensures g.Halt? ==> |stages| > 0
    ensures g.Halt? ==>
      || g.response.Invalid?
      || (g.response.payload.Message? && g.response.status in {401, 403, 404})
    decreases |stages|
  {
    if |stages| == 0 then Continue(user)
    else match RunStage(o, s, req, stages[0], user)
      case Halt(r) => Halt(r)
      case Continue(u) => RunStages(o, s, req, stages[1..], u)
  }

  /** Running a pipeline in two parts is running it whole; a halt in the first part is final. */
  lemma {:induction false} RunStagesSplit(o: Oracles, s: Store, req: Request,
                                          first: seq<Stage>, rest: seq<Stage>, user: Option<Identity>)
    ensures RunStages(o, s, req, first + rest, user) ==
      match RunStages(o, s, req, first, user)
      case Halt(r) => Halt(r)
      case Continue(u) => RunStages(o, s, req, rest, u)
    decreases |first|
  {
    if |first| == 0 {
      assert first + rest == rest;
    } else {
      assert (first + rest)[1..] == first[1..] + rest;
      match RunStage(o, s, req, first[0], user)
      case Halt(r) =>
      case Continue(u) => RunStagesSplit(o, s, req, first[1..], rest, u);
    }
  }

  /**
   * The handler behind each route, run with the identity the gates attached.
   * No handler writes the users table; only the upgrade route writes the
   * tenants, and only by raising plans; only create, update and delete
   * write the notes.
   */
  function Dispatch(o: Oracles, s: Store, req: Request, env: Env, user: Option<Identity>): (out: Outcome)
    ensures out.store.users == s.users
    ensures Tenants.PlansOnlyRise(s.tenants, out.store.tenants)
    ensures !req.endpoint.UpgradeRoute? ==> out.store.tenants == s.tenants
    ensures out.store.notes != s.notes ==>
      req.endpoint.CreateNoteRoute? || req.endpoint.UpdateNoteRoute? || req.endpoint.DeleteNoteRoute?
  {
    match req.endpoint
    case LoginRoute =>
      (match ParseLogin(req.body, o.isEmail)
       case None => Outcome(Invalid, s)
       case Some(input) => Outcome(Auth.Login(o, s, input), s))
    case HealthRoute => Outcome(Reply(200, HealthJson), s)
    case UpgradeRoute(slug) => Tenants.UpgradeTenantPlan(s, user, slug)
    case CreateNoteRoute =>
      (match ParseCreateNote(req.body)
       case None => Outcome(Invalid, s)
       case Some(input) => Notes.CreateNote(s, user, input, env))
    case ListNotesRoute => Outcome(Notes.GetNotes(s, user), s)
    case GetNoteRoute(id) => Outcome(Notes.GetNoteById(s, user, id), s)
    case UpdateNoteRoute(id) =>
      (match ParseUpdateNote(req.body, id, o.isUuid)
       case None => Outcome(Invalid, s)
       case Some(input) => Notes.UpdateNote(s, user, id, input))
    case DeleteNoteRoute(id) => Notes.DeleteNote(s, user, id)
  }

  /** Serve one request against the store, atomically. */
  function Handle(o: Oracles, s: Store, req: Request, env: Env): (out: Outcome)
    ensures RunStages(o, s, req, Pipeline(req.endpoint), None).Halt? ==>
      out == Outcome(RunStages(o, s, req, Pipeline(req.endpoint), None).response, s)
  {
    match RunStages(o, s, req, Pipeline(req.endpoint), None)
    case Halt(r) => Outcome(r, s)
    case Continue(user) => Dispatch(o, s, req, env, user)
  }

  /**
   * Serve requests one after another, each against the store the previous
   * one left.  However long the sequence, the users table is as it was and
   * no tenant's plan has moved back from PRO.
   */
  function Serve(o: Oracles, s: Store, reqs: seq<(Request, Env)>): (r: Store)
    ensures r.users == s.users
    ensures Tenants.PlansOnlyRise(s.tenants, r.tenants)
    decreases |reqs|
  {
    if |reqs| == 0 then s
    else Serve(o, Handle(o, s, reqs[0].0, reqs[0].1).store, reqs[1..])
  }
}

=== FILE: seed.dfy ===
/**
 * The store the seed script leaves behind — two FREE tenants, "acme" with
 * two notes and "globex" with one — and the end-to-end quota scenario run
 * against it.  Ids and timestamps are stand-ins for the generated ones.
 */
module Seed {
  import opened Domain
  import opened Http
  import opened Validation
  import opened Middleware
  import opened Routes
  import opened Guarantees
  import Notes
  import Tenants
  import Auth

  const Acme := Tenant("t-acme", "acme", "Acme Corporation", FREE)
  const Globex := Tenant("t-globex", "globex", "Globex Inc.", FREE)

  const AcmeAdmin := User("u-acme-admin", "admin@acme.test", "hash", ADMIN, "t-acme")
  const AcmeMember := User("u-acme-user", "user@acme.test", "hash", MEMBER, "t-acme")
  const GlobexAdmin := User("u-globex-admin", "admin@globex.test", "hash", ADMIN, "t-globex")
  const GlobexMember := User("u-globex-user", "user@globex.test", "hash", MEMBER, "t-globex")

  function SeedStore(): Store {
    Store(
      [Acme, Globex],
      [AcmeAdmin, AcmeMember, GlobexAdmin, GlobexMember],
      [ Note("acme-note-1", "Acme Initial Note 1", Some("This is the first note for Acme."), "t-acme", "u-acme-user", 1),
        Note("acme-note-2", "Acme Initial Note 2", Some("Another important note for Acme."), "t-acme", "u-acme-user", 2),
        Note("globex-note-1", "Globex Admin Note", Some("Admin created this note for Globex."), "t-globex", "u-globex-admin", 3) ])
  }

  lemma SeedIsValid()
    ensures Valid(SeedStore())
    ensures |NotesOf(SeedStore().notes, Acme.id)| == 2
  {
  }

  const MemberToken := "member-token"
  const AdminToken := "admin-token"

  /** A hexadecimal digit, either case. */
  predicate HexDigit(c: char) {
    '0' <= c <= '9' || 'a' <= c <= 'f' || 'A' <= c <= 'F'
  }

  /** The 8-4-4-4-12 hexadecimal shape; the seeded note ids do not have it. */
  predicate UuidShaped(id: string) {
    && |id| == 36
    && forall i :: 0 <= i < 36 ==>
         if i == 8 || i == 13 || i == 18 || i == 23 then id[i] == '-' else HexDigit(id[i])
  }

  /** A token verifier that knows the two acme tokens and rejects everything else. */
  function ScenarioOracles(): Oracles {
    Oracles(
      (tok: string) =>
        if tok == MemberToken then Verified(Auth.Claims(AcmeMember, Acme))
        else if tok == AdminToken then Verified(Auth.Claims(AcmeAdmin, Acme))
        else Failed(BadSignature),
      (id: Identity) => id.userId,
      (pw: string, hash: string) => pw == hash,
      UuidShaped,
      (e: string) => '@' in e)
  }

  function CreateRequest(token: string, title: string): Request {
    Request(Some(BearerHeader(token)), CreateNoteRoute, CreateBody(CreateNoteInput(title, None)))
  }

  const ThirdNote := Note("note-3", "third", None, "t-acme", "u-acme-user", 4)
  const FourthNote := Note("note-4", "fourth", None, "t-acme", "u-acme-user", 7)

  /** The store after the member's third note. */
  function AfterThird(): Store {
    SeedStore().(notes := SeedStore().notes + [ThirdNote])
  }

  /** The store after the upgrade. */
  function AfterUpgrade(): Store {
    AfterThird().(tenants := [Acme.(plan := PRO), Globex])
  }

  lemma MemberIsRequester(q: Request)
    requires q.authorization == Some(BearerHeader(MemberToken))
    ensures Requester(ScenarioOracles(), q) == Some(Auth.Claims(AcmeMember, Acme))
  {
    BearerRoundTrip(MemberToken);
  }

  lemma AcmeHasThreeAfterThird()
    ensures |NotesOf(AfterThird().notes, Acme.id)| == 3
  {
  }

  /** The seeded "acme" is below its quota. */
  lemma SeedHasRoom()
    ensures CheckSubscriptionLimit(SeedStore(), Some(Auth.Claims(AcmeMember, Acme))).Continue?
  {
  }

  /** `createNote` itself, for the acme member's third note. */
  lemma ThirdNoteCreated()
    ensures Notes.CreateNote(SeedStore(), Some(Auth.Claims(AcmeMember, Acme)), CreateNoteInput("third", None), Env("note-3", 4))
         == Outcome(Reply(201, NoteJson(ThirdNote)), AfterThird())
  {
  }

  lemma ThirdNoteAccepted()
    ensures Handle(ScenarioOracles(), SeedStore(), CreateRequest(MemberToken, "third"), Env("note-3", 4))
         == Outcome(Reply(201, NoteJson(ThirdNote)), AfterThird())
  {
    var q := CreateRequest(MemberToken, "third");
    MemberIsRequester(q);
    SeedHasRoom();
    CreateRoundTrip(CreateNoteInput("third", None));
    CreateReachesHandler(ScenarioOracles(), SeedStore(), q, Env("note-3", 4), CreateNoteInput("third", None));
    ThirdNoteCreated();
  }

  lemma FourthNoteRefused()
    ensures Handle(ScenarioOracles(), AfterThird(), CreateRequest(MemberToken, "fourth"), Env("note-4", 5))
         == Outcome(Deny(403, QuotaMessage), AfterThird())
  {
    var q := CreateRequest(MemberToken, "fourth");
    MemberIsRequester(q);
    assert TenantById(AfterThird().tenants, Acme.id) == Some(Acme);
    AcmeHasThreeAfterThird();
    QuotaPrecedesValidation(ScenarioOracles(), AfterThird(), q, Env("note-4", 5), Acme);
  }

  /** `upgradeTenantPlan` itself, for the acme admin after the third note. */
  lemma UpgradeOfAcme()
    ensures var out := Tenants.UpgradeTenantPlan(AfterThird(), Some(Auth.Claims(AcmeAdmin, Acme)), "acme");
      out.store == AfterUpgrade() && out.response.Reply? && out.response.status == 200
  {
  }

  lemma AdminUpgradesAcme()
    ensures var out := Handle(ScenarioOracles(), AfterThird(),
                              Request(Some(BearerHeader(AdminToken)), UpgradeRoute("acme"), EmptyBody), Env("unused", 6));
      out.store == AfterUpgrade() && out.response.Reply? && out.response.status == 200
  {
    var q := Request(Some(BearerHeader(AdminToken)), UpgradeRoute("acme"), EmptyBody);
    BearerRoundTrip(AdminToken);
    assert Requester(ScenarioOracles(), q) == Some(Auth.Claims(AcmeAdmin, Acme));
    UpgradeReachesHandler(ScenarioOracles(), AfterThird(), q, Env("unused", 6));
    UpgradeOfAcme();
  }

  lemma FourthIdFresh()
    ensures !Notes.IdTaken(AfterUpgrade().notes, "note-4")
  {
  }

  lemma AcmeIsPro()
    ensures TenantById(AfterUpgrade().tenants, Acme.id) == Some(Acme.(plan := PRO))
  {
  }

  lemma FourthNoteAcceptedOnPro()
    ensures Handle(ScenarioOracles(), AfterUpgrade(), CreateRequest(MemberToken, "fourth"), Env("note-4", 7))
         == Outcome(Reply(201, NoteJson(FourthNote)), AfterUpgrade().(notes := AfterUpgrade().notes + [FourthNote]))
  {
    var q := CreateRequest(MemberToken, "fourth");
    var member := Auth.Claims(AcmeMember, Acme);
    MemberIsRequester(q);
    AcmeIsPro();
    FourthIdFresh();
    assert CheckSubscriptionLimit(AfterUpgrade(), Some(member)).Continue?;
    CreateReachesHandler(ScenarioOracles(), AfterUpgrade(), q, Env("note-4", 7), CreateNoteInput("fourth", None));
  }
}

=== FILE: tenants.dfy ===
/**
 * `upgradeTenantPlan` of `tenants.controller.ts`: an administrator moves
 * their own tenant from FREE to PRO.  The handler itself does not look at
 * the role; the route puts the role gate in front of it.
 */
module Tenants {
  import opened Domain
  import opened Http

  /** `prisma.tenant.update({ where: { id }, data: { plan: PRO } })`. */
  function SetPro(ts: seq<Tenant>, id: string): (r: seq<Tenant>)
    ensures PlansOnlyRise(ts, r)
    ensures forall i :: 0 <= i < |r| && r[i].id == id ==> r[i].plan == PRO
    ensures forall i :: 0 <= i < |ts| && ts[i].id != id ==> r[i] == ts[i]
  {
    seq(|ts|, i requires 0 <= i < |ts| => if ts[i].id == id then ts[i].(plan := PRO) else ts[i])
  }

  /** Only the plan may change, and only towards PRO. */
  predicate PlansOnlyRise(before: seq<Tenant>, after: seq<Tenant>) {
    && |after| == |before|
    && forall i :: 0 <= i < |before| ==>
         && after[i].(plan := before[i].plan) == before[i]
         && (before[i].plan == PRO ==> after[i].plan == PRO)
  }

  function UpgradeTenantPlan(s: Store, user: Option<Identity>, slug: string): (out: Outcome)
    ensures out.store == s.(tenants := out.store.tenants)
    ensures PlansOnlyRise(s.tenants, out.store.tenants)
    ensures user.None? ==> out == Outcome(Deny(401, NotAuthenticatedMessage), s)
    ensures user.Some? && TenantIndexBySlug(s.tenants, slug).None? ==>
      out == Outcome(Deny(404, TenantNotFoundMessage), s)
    ensures user.Some? && TenantIndexBySlug(s.tenants, slug).Some? ==>
      var t := s.tenants[TenantIndexBySlug(s.tenants, slug).value];
      && (t.id != user.value.tenantId ==> out == Outcome(Deny(403, NotYourTenantMessage), s))
      && (t.id == user.value.tenantId && t.plan == PRO ==>
            out == Outcome(Reply(200, UpgradeJson(AlreadyProMessage, TenantJson(t.id, t.name, None, PRO))), s))
      && (t.id == user.value.tenantId && t.plan == FREE ==>
            && out.response == Reply(200, UpgradeJson(t.name + UpgradedSuffix, TenantJson(t.id, t.name, Some(t.slug), PRO)))
            && out.store == s.(tenants := out.store.tenants)
            && out.store.tenants[TenantIndexBySlug(s.tenants, slug).value] == t.(plan := PRO)
            && forall i :: 0 <= i < |s.tenants| && s.tenants[i].id != t.id ==> out.store.tenants[i] == s.tenants[i])
  {
    if user.None? then Outcome(Deny(401, NotAuthenticatedMessage), s)
    else match TenantIndexBySlug(s.tenants, slug)
      case None => Outcome(Deny(404, TenantNotFoundMessage), s)
      case Some(k) =>
        var t := s.tenants[k];
        if t.id != user.value.tenantId then Outcome(Deny(403, NotYourTenantMessage), s)
        else if t.plan == PRO then
          Outcome(Reply(200, UpgradeJson(AlreadyProMessage, TenantJson(t.id, t.name, None, PRO))), s)
        else
          var ts := SetPro(s.tenants, t.id);
          var u := ts[k];
          Outcome(Reply(200, UpgradeJson(u.name + UpgradedSuffix, TenantJson(u.id, u.name, Some(u.slug), u.plan))),
                  s.(tenants := ts))
  }

  /** A second upgrade changes nothing: the operation is idempotent. */
  lemma UpgradeIdempotent(s: Store, user: Option<Identity>, slug: string)
    ensures var once := UpgradeTenantPlan(s, user, slug).store;
            UpgradeTenantPlan(once, user, slug).store == once
  {
  }
}

=== FILE: text.dfy ===
/**
 * The two JavaScript string operations the authentication gate relies on:
 * `startsWith` and `split` with a one-character separator.
 */
module Text {

  predicate StartsWith(s: string, prefix: string) {
    |prefix| <= |s| && s[..|prefix|] == prefix
  }

  /** `s.split(sep)`: the maximal separator-free fields, in order. */
  function Split(s: string, sep: char): (fields: seq<string>)
    ensures |fields| >= 1
    ensures forall i :: 0 <= i < |fields| ==> sep !in fields[i]
    decreases |s|
  {
    if |s| == 0 then [""]
    else if s[0] == sep then [""] + Split(s[1..], sep)
    else
      var rest := Split(s[1..], sep);
      [[s[0]] + rest[0]] + rest[1..]
  }

  /** `fields.join(sep)`, the inverse of `Split`. */
  function Join(fields: seq<string>, sep: char): (s: string)
    requires |fields| >= 1
  {
    if |fields| == 1 then fields[0] else fields[0] + [sep] + Join(fields[1..], sep)
  }

  /** The longest prefix of `s` that does not contain `sep`. */
  function TakeUntil(s: string, sep: char): (r: string)
    ensures sep !in r
    ensures StartsWith(s, r)
    ensures |r| < |s| ==> s[|r|] == sep
  {
    if |s| == 0 || s[0] == sep then "" else [s[0]] + TakeUntil(s[1..], sep)
  }

  lemma {:induction false} JoinSplit(s: string, sep: char)
    ensures Join(Split(s, sep), sep) == s
    decreases |s|
  {
    if |s| == 0 {
    } else if s[0] == sep {
      JoinSplit(s[1..], sep);
      assert s == [sep] + s[1..];
    } else {
      var rest := Split(s[1..], sep);
      JoinSplit(s[1..], sep);
      if |rest| == 1 {
        assert s == [s[0]] + rest[0];
      } else {
        assert Join(rest, sep) == rest[0] + [sep] + Join(rest[1..], sep);
        assert ([[s[0]] + rest[0]] + rest[1..])[1..] == rest[1..];
        assert s == [s[0]] + s[1..];
      }
    }
  }

  /** A field that is free of the separator is split off whole. */
  lemma {:induction false} SplitAfterField(field: string, sep: char, rest: string)
    requires sep !in field
    ensures Split(field + [sep] + rest, sep) == [field] + Split(rest, sep)
    decreases |field|
  {
    var s := field + [sep] + rest;
    if |field| == 0 {
      assert s == [sep] + rest;
      assert s[1..] == rest;
    } else {
      assert s[1..] == field[1..] + [sep] + rest;
      SplitAfterField(field[1..], sep, rest);
      assert field == [field[0]] + field[1..];
    }
  }

  /** The first field of a split is the text up to the first separator. */
  lemma {:induction false} SplitHead(s: string, sep: char)
    ensures Split(s, sep)[0] == TakeUntil(s, sep)
    decreases |s|
  {
    if |s| > 0 && s[0] != sep {
      SplitHead(s[1..], sep);
    }
  }

  lemma {:induction false} SplitJoin(fields: seq<string>, sep: char)
    requires |fields| >= 1
    requires forall i :: 0 <= i < |fields| ==> sep !in fields[i]
    ensures Split(Join(fields, sep), sep) == fields
    decreases |fields|
  {
    if |fields| == 1 {
      SplitOfFieldFree(fields[0], sep);
    } else {
      SplitJoin(fields[1..], sep);
      SplitAfterField(fields[0], sep, Join(fields[1..], sep));
    }
  }

  lemma {:induction false} SplitOfFieldFree(s: string, sep: char)
    requires sep !in s
    ensures Split(s, sep) == [s]
    decreases |s|
  {
    if |s| > 0 {
      assert s[0] in s;
      SplitOfFieldFree(s[1..], sep);
      assert s == [s[0]] + s[1..];
    }
  }
}

=== FILE: validation.dfy ===
/**
 * The request schemas checked before a handler runs: the note bodies, the
 * note id parameter of an update, the login body and the tenant slug.  A
 * schema either rejects the request or yields the typed input its handler
 * reads.  `z.string()` accepts only strings, `.min(1)` only non-empty ones,
 * and `.optional()` additionally accepts an absent field (but not null or
 * any other value).
 */
module Validation {
  import opened Domain
  import opened Http

  datatype CreateNoteInput = CreateNoteInput(title: string, content: Option<string>)

  /** `None` in a field means "absent": the database leaves that column unchanged. */
  datatype UpdateNoteInput = UpdateNoteInput(title: Option<string>, content: Option<string>)

  datatype LoginInput = LoginInput(email: string, password: string)

  const MinPasswordLength: nat := 6

  /** The UTF-16 code units of one character: two for a character beyond U+FFFF. */
  function Utf16Units(c: char): nat {
    if (c as int) < 0x1_0000 then 1 else 2
  }

  /**
   * JavaScript's `length`, which zod's `.min` compares: a string's UTF-16
   * code units, not its characters.
   */
  function Utf16Length(s: string): (n: nat)
    ensures |s| <= n <= 2 * |s|
    ensures n == |s| <==> forall i :: 0 <= i < |s| ==> (s[i] as int) < 0x1_0000
    decreases |s|
  {
    if |s| == 0 then 0
    else
      var n := Utf16Units(s[0]) + Utf16Length(s[1..]);
      assert forall i :: 1 <= i < |s| ==> s[i] == s[1..][i - 1];
      n
  }

  /** An optional string field: `Some(None)` when absent, `None` when rejected. */
  function OptionalText(v: Value): (r: Option<Option<string>>)
    ensures r.None? <==> v.NotText?
    ensures r == Some(None) <==> v.Absent?
    ensures v.Text? ==> r == Some(Some(v.s))
  {
    match v
    case Absent => Some(None)
    case Text(s) => Some(Some(s))
    case NotText => None
  }

  /** `createNoteSchema`: a non-empty title string and an optional content string. */
  function ParseCreateNote(b: Body): (r: Option<CreateNoteInput>)
    ensures r.Some? <==> b.title.Text? && |b.title.s| >= 1 && !b.content.NotText?
    ensures r.Some? ==> r.value.title == b.title.s && r.value.title != ""
    ensures r.Some? ==> (r.value.content.None? <==> b.content.Absent?)
  {
    match (b.title, OptionalText(b.content))
    case (Text(t), Some(c)) => if |t| >= 1 then Some(CreateNoteInput(t, c)) else None
    case _ => None
  }

  /** `updateNoteSchema`: optional non-empty title, optional content, UUID-shaped id. */
  function ParseUpdateNote(b: Body, id: string, isUuid: string -> bool): (r: Option<UpdateNoteInput>)
    ensures r.Some? <==>
      && isUuid(id)
      && (b.title.Absent? || (b.title.Text? && |b.title.s| >= 1))
      && !b.content.NotText?
    ensures r.Some? ==> r.value.title != Some("")
  {
    if !isUuid(id) then None
    else
      var title := match b.title
        case Absent => Some(None)
        case Text(t) => if |t| >= 1 then Some(Some(t)) else None
        case NotText => None;
      match (title, OptionalText(b.content))
      case (Some(t), Some(c)) => Some(UpdateNoteInput(t, c))
      case _ => None
  }

  /** `loginSchema`: an e-mail-shaped string and a password of at least six characters. */
  function ParseLogin(b: Body, isEmail: string -> bool): (r: Option<LoginInput>)
    ensures r.Some? <==>
      b.email.Text? && isEmail(b.email.s) && b.password.Text? && Utf16Length(b.password.s) >= MinPasswordLength
    ensures r.Some? ==> r.value == LoginInput(b.email.s, b.password.s)
  {
    match (b.email, b.password)
    case (Text(e), Text(p)) =>
      if isEmail(e) && Utf16Length(p) >= MinPasswordLength then Some(LoginInput(e, p)) else None
    case _ => None
  }

  /**
   * The six-unit minimum is met by three characters beyond U+FFFF, as it is
   * by six ASCII characters, and missed by five.
   */
  lemma PasswordMinimumCountsUnits(isEmail: string -> bool, email: string)
    requires isEmail(email)
    ensures ParseLogin(Body(Text(email), Text("\U{1F600}\U{1F600}\U{1F600}"), Absent, Absent), isEmail).Some?
    ensures ParseLogin(Body(Text(email), Text("secret"), Absent, Absent), isEmail).Some?
    ensures ParseLogin(Body(Text(email), Text("short"), Absent, Absent), isEmail).None?
  {
  }

  /** `upgradeTenantPlanSchema`: a non-empty slug. */
  predicate ValidSlug(slug: string) {
    |slug| >= 1
  }

  function FieldOf(v: Option<string>): Value {
    match v
    case None => Absent
    case Some(s) => Text(s)
  }

  /** The body a client sends for a create. */
  function CreateBody(x: CreateNoteInput): Body {
    EmptyBody.(title := Text(x.title), content := FieldOf(x.content))
  }

  /** The body a client sends for an update. */
  function UpdateBody(x: UpdateNoteInput): Body {
    EmptyBody.(title := FieldOf(x.title), content := FieldOf(x.content))
  }

  /** A create body survives validation exactly when its title is non-empty. */
  lemma CreateRoundTrip(x: CreateNoteInput)
    ensures ParseCreateNote(CreateBody(x)) == if x.title != "" then Some(x) else None
  {
  }

  /** Validation keeps every field the create handler reads. */
  lemma CreateParseFaithful(b: Body, x: CreateNoteInput)
    requires ParseCreateNote(b) == Some(x)
    ensures CreateBody(x) == b.(email := Absent, password := Absent)
  {
  }

  /** An update body survives validation exactly when a present title is non-empty. */
  lemma UpdateRoundTrip(x: UpdateNoteInput, id: string, isUuid: string -> bool)
    requires isUuid(id)
    ensures ParseUpdateNote(UpdateBody(x), id, isUuid) == if x.title != Some("") then Some(x) else None
  {
  }

  lemma UpdateParseFaithful(b: Body, id: string, isUuid: string -> bool, x: UpdateNoteInput)
    requires ParseUpdateNote(b, id, isUuid) == Some(x)
    ensures UpdateBody(x) == b.(email := Absent, password := Absent)
  {
  }
}
